=== FILE: README.md ===
# Prime shapes: the pen walk, its point store and its checkpoints

The prime-shapes program draws figures by walking a pen over the integer plane.
For every iteration `k` of its main loop, each of nine cases does the following:
- it computes a number from `k`, for example `2k + 1` or `6k + 1` (cases 4 and 8 also use the case's alternating sign);
- it asks whether that number is prime;
- it turns the pen 90 degrees counter-clockwise when the verdict differs from the previous one;
- it flips the alternating sign;
- it moves the pen one step along the heading;
- it records the new position in a de-duplicating point store.

Every `checkpoint_value` iterations, counted from the first one, the program saves a cursor
`k_current` together with every case's state. On start-up, a restored snapshot replaces every
case's state, and its cursor replaces the first iteration when it is positive.

The model is split into these modules:

- `Outcomes` (`outcomes.dfy`) holds the result types. Each Python exception reachable on the modelled paths, under the assumptions about lines 179, 219 and 293 stated below, becomes an `Err`:
  - `IndexError`, when `datay` is shorter than `datax` during the scan, or the case list is too short;
  - `ZeroDivisionError`, when `checkpoint_value` is 0, or when `max_num` is 0 at a checkpoint's progress figure;
  - `NameError`, when `perc_completed` is read at the end although no checkpoint bound it.
- `Shapes` (`shapes.dfy`) is the turn/heading/sign machine. It has `next_delta`, `next_turn`, `next_sign` and `next_iteration`, with primality as a parameter `isPrime: int -> bool`.
- `PointStore` (`points.dfy`) holds the parallel lists `datax`/`datay`/`colors` and the two updates. The linear scan of the optimized update exists both as a function and as a loop.
- `Cases` (`cases.dfy`) holds the per-case state, the nine number generators, `run_test_case`, one pass of the main loop over the enabled cases (`RunCases`) and a checkpoint-free run of several iterations (`Advance`).
- `Iterations` (`iterations.dfy`) holds what steps and runs preserve:
  - the case invariants;
  - the independence of the cases;
  - the alternation of the signs;
  - the splitting of runs.
- `Checkpoints` (`checkpoints.dfy`) holds the main loop with its checkpoint schedule, the start-up cursor rule and the whole program as a function from a restored snapshot to the final snapshot. Which iteration a saved cursor names is a parameter `CursorRule`:
  - `SaveProcessed` is `k_current = k`, as written;
  - `SaveNext` is `k_current = k + 1`.
- `Resume` (`resume.dfy`) relates the loop to the checkpoint-free run, shows what the snapshots record, and compares resumed runs with uninterrupted ones under both cursor rules.

Some behaviour of the code is not announced by its comments or its call sites:
- The comment at primes-figure.py:43 asks for a `checkpoint_value` greater than zero, but nothing enforces it. A value of 0 raises ZeroDivisionError at line 297. A negative value fires on the same iterations as its absolute value.
- A checkpoint fires at the first iteration itself, because `(k - min_num) % checkpoint_value` is 0 for `k = min_num`.
- The progress figure at line 299 divides by `max_num`. A `max_num` of 0 with a negative `min_num` therefore raises ZeroDivisionError at the first checkpoint.
- A resumed run is not the same as an uninterrupted one; see Findings.
- `run_test_case` passes nine arguments to `next_iteration` (primes-figure.py:179), which takes six (shapes.py:65). As written, that call raises TypeError, and unpacking five results into the eight targets of line 179 would raise ValueError. The model assumes the call returns the five results of shapes.py's `next_iteration` and also updates the statistics counters, so that `stats_iterations` is positive for every enabled case at each checkpoint and the division at line 219 never divides by zero; the counters themselves are not modelled. It also assumes `shapes` provides `get_sum_of_decimal_digits` (called at line 293 but not defined in shapes.py), which the model takes as the parameter `digitSum`. Under these assumptions the faults listed for `Outcomes` are the reachable ones, apart from the OverflowError admitted for `Checkpoints.PercCompleted`.

## Model

| member | source | states |
|---|---|---|
| Shapes.NextDelta | shapes.py:29-47 | without a turn the heading is returned unchanged; with a turn a canonical heading changes; a non-canonical one never does; the result is canonical exactly when the input is |
| Shapes.NoTurnKeepsHeading | shapes.py:29-47 | with `turn` false every heading, canonical or not, comes back unchanged |
| Shapes.TurnCycle | shapes.py:30-46 | with a turn the headings follow (1,0) -> (0,1) -> (-1,0) -> (0,-1) -> (1,0) |
| Shapes.TurnIsRotation | shapes.py:30-46 | on canonical headings a turn equals the independent 90-degree counter-clockwise rotation (dx, dy) -> (-dy, dx) |
| Shapes.NonCanonicalFallsThrough | shapes.py:47 | a non-canonical heading is returned unchanged even when a turn is requested |
| Shapes.FourTurnsIdentity | shapes.py:30-46 | four turns bring every canonical heading back, and one, two or three never do |
| Shapes.TurnsPeriodic | shapes.py:29-47 | any number of turns from a canonical heading stays canonical and depends only on the count modulo 4 |
| Shapes.NextTurn | shapes.py:49-57 | a turn occurs exactly when the verdict on `num` differs from the previous flag, and the new flag is the verdict on `num` |
| Shapes.NextSign | shapes.py:59-63 | the result is -1 exactly when the input is 1, and always lies in {-1, 1} |
| Shapes.SignInvolution | shapes.py:59-63 | on {-1, 1} the sign step negates and applying it twice is the identity |
| Shapes.NextIteration | shapes.py:65-70 | the sign flips whatever the verdict; the heading changes only on a turn and, when canonical, exactly on a turn; canonicity is kept |
| Shapes.IterateSignParity | shapes.py:65-70 | after n iterations the sign is the starting one when n is even and its negation when n is odd |
| Shapes.SignFromOne | shapes.py:59-70 | starting from sign 1, the sign is 1 after n iterations exactly when n is even |
| Shapes.IterateHeading | shapes.py:65-70 | after a run the heading is the start heading turned once per verdict change, and the flag equals the verdict on the last number |
| Shapes.IterateCanonical | shapes.py:65-70 | a run started from a canonical heading ends on a canonical heading |
| PointStore.UpdatePoints | primes-figure.py:186-192 | each list grows by exactly one; the old contents are an unchanged prefix; the new last entries are x, y and the colour tag of `turn`; equal lengths are kept |
| PointStore.AppendPresent | primes-figure.py:186-192 | on parallel lists, the pairs present after an append are the old pairs plus the appended one |
| PointStore.ScanFrom | primes-figure.py:199-203 | a hit names an index holding (x, y); a fault names an index whose x matches but that `datay` lacks |
| PointStore.ScanHitIffPresent | primes-figure.py:199-203 | the scan hits exactly when some common index holds (x, y) |
| PointStore.FindPoint | primes-figure.py:197-203 | the loop ends with the same outcome as the scan: the first hit, a miss, or the index that raises IndexError |
| PointStore.UpdatePointsOptimized | primes-figure.py:194-211 | the update either leaves the store unchanged or performs the plain append; it fails only with IndexError, and only when `datay` is shorter than `datax` |
| PointStore.OptimizedSpec | primes-figure.py:194-211 | a present pair leaves the store unchanged; an absent pair is appended; a failure needs a matching x past the end of `datay`; on parallel lists the pair is present afterwards |
| PointStore.UpdatesPreserveWellFormed | primes-figure.py:186-211 | both updates keep `datax`, `datay` and `colors` of equal length, and the optimized one succeeds on such a store |
| PointStore.OptimizedKeepsNoDuplicates | primes-figure.py:194-211 | a duplicate-free parallel store stays duplicate-free |
| PointStore.OptimizedKeepsStore | primes-figure.py:194-211 | a parallel duplicate-free store stays parallel and duplicate-free and holds (x, y) afterwards |
| PointStore.OptimizedIsSetInsertion | primes-figure.py:194-211 | seen as a set of pairs, the optimized update inserts (x, y) |
| PointStore.OptimizedIdempotent | primes-figure.py:194-211 | recording the same coordinates a second time changes nothing, whatever the colour |
| PointStore.InitialStore | primes-figure.py:103-105 | the initial store, the origin once, is parallel and duplicate-free and holds (0, 0) |
| Cases.CaseResidues | primes-figure.py:251-294 | the numbers `CaseNumber` generates: case 1 tests odd numbers; cases 2 and 3 the classes 1 and 5 modulo 6; cases 6 and 7 the classes 1 and 29 modulo 30; cases 4 and 8 the class the sign picks (5 or 1 modulo 6, 29 or 1 modulo 30); case 5 tests `k` and case 9 its digit sum |
| Cases.OnlySignedCasesReadSign | primes-figure.py:251-294 | every generator except those of cases 4 and 8 gives the same number whatever the sign |
| Cases.SignedCaseNumber | primes-figure.py:266-289 | cases 4 and 8 test `6k - sign` and `30k - sign` |
| Cases.RunTestCase | primes-figure.py:176-184 | the pen moves by exactly the new heading; the number and its primality verdict are recorded as `num_current` and the flag; the sign flips into {-1, 1}; a canonical heading stays canonical and changes exactly when the verdict changes; the step succeeds whenever `datay` is at least as long as `datax` |
| Cases.RunCases | primes-figure.py:249-294 | one iteration keeps the number of cases, and its only possible fault is IndexError |
| Cases.Advance | primes-figure.py:249-294 | a run of iterations keeps the number of cases, and its only possible fault is IndexError |
| Iterations.RunTestCaseKeepsReady | primes-figure.py:176-184 | a step on parallel lists with a sign in {-1, 1} succeeds and keeps both |
| Iterations.RunTestCaseKeepsNoDuplicates | primes-figure.py:176-184 | a step keeps a parallel store duplicate-free |
| Iterations.RunTestCaseKeepsPresent | primes-figure.py:176-184 | after a step the store holds the new pen position |
| Iterations.RunTestCaseKeepsInvariant | primes-figure.py:176-184 | a step keeps every case invariant: parallel, duplicate-free store holding the pen; canonical heading; sign in {-1, 1} |
| Iterations.PenMovesOneUnit | primes-figure.py:179-182 | from a canonical heading the pen moves by exactly one unit along one axis |
| Iterations.InitialWorldHealthy | primes-figure.py:97-108 | the nine initial cases have parallel lists and each starts with sign 1 |
| Iterations.InitialWorldSound | primes-figure.py:97-108 | the nine initial cases satisfy every case invariant |
| Iterations.RunCasesHealthy | primes-figure.py:249-294 | one iteration over nine ready cases succeeds and leaves them ready |
| Iterations.RunCasesAt | primes-figure.py:249-294 | in one iteration each enabled case is stepped on its own state with its own number, and each disabled case is untouched |
| Iterations.StepSign | primes-figure.py:249-294 | one iteration flips the sign of exactly the enabled cases |
| Iterations.StepSound | primes-figure.py:249-294 | one iteration keeps every case invariant of all nine cases |
| Iterations.AdvanceHealthy | primes-figure.py:249-294 | any number of iterations over ready cases succeeds and leaves them ready |
| Iterations.AdvanceSound | primes-figure.py:249-294 | any number of iterations keeps every case invariant, so from the initial world the heading stays canonical and the store duplicate-free forever |
| Iterations.AdvanceSign | primes-figure.py:249-294 | each enabled case's sign flips once per iteration of a run, and a disabled case's sign never changes |
| Iterations.AdvanceSignParity | primes-figure.py:249-294 | after an even number of iterations every sign is back, after an odd number every enabled case's sign is negated |
| Iterations.AlternatingOffset | primes-figure.py:266-289 | the offset of case 4 or 8 from its multiple of 6 or 30 is the case's sign, in {-1, 1}, and it alternates from one `k` to the next |
| Iterations.AdvanceSplit | primes-figure.py:249-294 | running `lo..mid` and then `mid..hi` is running `lo..hi` |
| Iterations.AdvanceSplitErr | primes-figure.py:249-294 | a run that fails on a prefix fails the same way on the longer range |
| Iterations.ReplayFlipsSign | primes-figure.py:249-294 | running iteration k once more before the rest leaves every enabled case with the opposite sign |
| Checkpoints.CheckpointDue | primes-figure.py:297 | a zero interval raises ZeroDivisionError, a nonzero one never does, and the first iteration is always a checkpoint |
| Checkpoints.CheckpointSchedule | primes-figure.py:297 | with a positive interval, a checkpoint fires at `min_num + j * checkpoint_value` and at no iteration in between |
| Checkpoints.PercCompleted | primes-figure.py:299 | a zero `max_num` raises ZeroDivisionError and no other does; for a positive `max_num` the figure is `100k / max_num` rounded toward zero |
| Checkpoints.CheckpointAt | primes-figure.py:297-299 | an iteration is a checkpoint exactly when the interval test says so; it fails, with ZeroDivisionError, exactly when the interval is 0 or a checkpoint's progress figure divides by a zero `max_num` |
| Checkpoints.SavedCursor | primes-figure.py:306 | as written the saved cursor is the iteration just processed; under the corrected rule it is the next one |
| Checkpoints.ProcessedEnd | primes-figure.py:306 | the iteration a saved cursor is one past is the one whose save wrote that cursor |
| Checkpoints.SavedEnd | primes-figure.py:306 | a snapshot saved after iteration k includes the iterations before k + 1, under either cursor rule |
| Checkpoints.StartCursor | primes-figure.py:242-244 | a restored positive cursor becomes the first iteration; otherwise the run starts at `min_num` |
| Checkpoints.RestoreRule | primes-figure.py:242-244 | a restored snapshot always replaces the state, but only a positive cursor moves the start; without a snapshot the run starts fresh at `min_num` |
| Checkpoints.Loop | primes-figure.py:249-307 | a loop with iterations to do fails under a zero interval, and fails at its first checkpoint under a zero `max_num`; once a snapshot has been saved, the loop ends with one |
| Checkpoints.Main | primes-figure.py:243-314 | a run with nothing left to iterate ends in NameError; a zero `max_num` or zero interval never ends normally; a run that ends normally saves cursor `max_num` |
| Resume.LoopMatchesAdvance | primes-figure.py:249-307 | a loop that ends normally computes the same world as the checkpoint-free run, and always does when neither the interval nor `max_num` is 0; it has saved a snapshot once it runs an iteration |
| Resume.LoopSnapshots | primes-figure.py:297-307 | every snapshot the loop saves holds exactly the world after the iterations its cursor claims, none past where the loop stops |
| Resume.FirstCheckpointRaises | primes-figure.py:297-299 | with `max_num` 0, the first iteration's checkpoint raises ZeroDivisionError unless a case already failed |
| Resume.MainResult | primes-figure.py:243-314 | from a ready start with a nonzero interval, the program ends with the world after every iteration from the start cursor to `max_num - 1`, or raises ZeroDivisionError when `max_num` is 0 |
| Resume.CrashSnapshot | primes-figure.py:297-307 | a fresh run killed after its first checkpoint leaves a snapshot recording the iterations its cursor claims, or raised ZeroDivisionError when `max_num` is 0 |
| Resume.ResumedRun | primes-figure.py:243-249 | resuming from any ready snapshot with a positive cursor below `max_num` restarts at its cursor with its world |
| Resume.UninterruptedRun | primes-figure.py:243-314 | a run that restores nothing runs every iteration from `min_num`, or raises ZeroDivisionError when `max_num` is 0 |
| Resume.UninterruptedThrough | primes-figure.py:248-314 | an uninterrupted run passes through the world after any iteration and finishes from there, or raises ZeroDivisionError when `max_num` is 0 |
| Resume.ResumeReplaysIteration | primes-figure.py:243-307 | as written, resuming after a crash runs the saved iteration twice, so every enabled case ends with the opposite sign to an uninterrupted run |
| Resume.ReplayFrom | primes-figure.py:243-307 | resuming, as written, from a snapshot of iterations `min_num` through its cursor, when that cursor is positive or equal to `min_num` so that line 243 keeps it, ends with every enabled case's sign opposite to an uninterrupted run |
| Resume.ResumeMatchesUninterrupted | primes-figure.py:243-307 | with the cursor saved as `k + 1`, resuming gives exactly the uninterrupted result, or NameError when nothing is left to run |
| Resume.ShippedSettingsReplay | primes-figure.py:38-54 | with the shipped range, interval and cases, a run killed after its first checkpoint and resumed ends with every case's sign opposite to an uninterrupted run |

## Left out

- Primality: the `primes.Primes` oracle, its caching sets, its seeding from files and its sorting are not part of this model. Primality is the parameter `isPrime`.
- Case 9's digit sum: `get_sum_of_decimal_digits` is not part of this model. It is the parameter `digitSum`.
- Statistics counters: `stats_primes`, `stats_nonprimes` and `stats_iterations` are left out. The code that would update them is not in the six-argument `next_iteration`.
- Statistics report: `write_stats_to_file` is left out. It is file output with floating-point percentages; its division at line 219 is assumed to have a positive divisor, as stated above.
- Pickle I/O: `save_current_results` and `restore_previous_results` become a `Snapshot` value passed to `Main`. A missing file becomes `None`.
- Figures: `write_results_to_figure`, `write_results_to_figures`, `set_file_output_filename` and the `perc_completed` string are rendering and file naming. Only the fact that `perc_completed` is bound by a checkpoint is modelled.
- Configuration: file names and directory creation are left out. `Configured` records the shipped range, interval and cases.
- Case names: cases are the numbers 1..9, not the strings 'c1'..'c9'.
- Colours: both colour tags are the program's constant 0.
- The `num` global: the global that `run_test_case` reads is a parameter.
- Checkpoints.Main: returns only the final snapshot. The figures and statistics written at each checkpoint are not part of the result.
- Resume.MainResult, Resume.CrashSnapshot, Resume.UninterruptedRun, Resume.UninterruptedThrough, Resume.ResumedRun: assume a nonzero `checkpoint_value`. A zero one fails at the first iteration, which `Checkpoints.Main` and `Checkpoints.Loop` state.
- Resume.ResumeReplaysIteration: assumes a non-negative `min_num`. With a negative one the first saved cursor can be 0 or negative; line 243 then ignores it, and the resumed run starts from `min_num` on the restored state (`Checkpoints.RestoreRule`).
- Resume.ResumeMatchesUninterrupted: assumes a non-negative `min_num`, for the same reason.
- Checkpoints.PercCompleted: divides exactly and rounds toward zero. Python divides in floating point, which agrees while `100k` stays below 2^53, and raises OverflowError when the quotient leaves the float range; neither case is modelled.

## Findings

| source | as written | input that shows it | evidently intended | confidence | as-written member | corrected member |
|---|---|---|---|---|---|---|
| primes-figure.py:306 | a checkpoint after iteration k saves `k_current = k`, and resuming at line 244 restarts at `k_current`, so iteration k runs a second time on state that already includes it | `min_num = 1`, `max_num = 3`, `checkpoint_value = 1`, killed before iteration 2: the snapshot has cursor 1; the resumed run processes iteration 1 a second time and then iteration 2, and every case ends with sign -1 instead of 1 | a resumed run ends with the same state as one that never stopped, which saving `k_current = k + 1` achieves | not executed | Resume.ResumeReplaysIteration | Resume.ResumeMatchesUninterrupted |

=== FILE: cases.dfy ===
/** The nine test cases of the figure generator and one pass of its main loop.

    For every `k` of the iteration range, each enabled case computes its number
    from `k` (cases 4 and 8 also from their own current sign), feeds it through
    the turn/heading/sign machine, moves its pen by the new heading and records
    the new position in its point store.

    All nine cases' state lives in one sequence indexed by `tcid = case - 1`.
 */
module Cases {
  import opened Outcomes
  import opened Shapes
  import opened PointStore

  /** The program keeps state for cases c1..c9, at indices 0..8. */
  const CaseCount := 9

  /** Everything the program keeps per case at index `tcid`. */
  datatype CaseState = CaseState(
    x: int, y: int,          // new_x, new_y: the pen position
    delta: Delta,            // delta_x, delta_y: the heading
    sign: int,               // sign: the alternating +1/-1
    isPreviousPrime: bool,   // is_previous_prime
    numCurrent: int,         // num_current: the last number whose primality was asked
    points: Store)           // datax, datay, colors

  const InitialCase := CaseState(0, 0, Delta(1, 0), 1, false, 0, PointStore.Initial)

  const InitialWorld: seq<CaseState> :=
    [InitialCase, InitialCase, InitialCase, InitialCase, InitialCase,
     InitialCase, InitialCase, InitialCase, InitialCase]

  /** What the cases compute with: the primality oracle, the decimal digit-sum helper
      (neither is part of this model) and the enabled case numbers, `cases_to_check`. */
  datatype Plan = Plan(isPrime: int -> bool, digitSum: int -> int, enabled: set<int>)

  /** The number case `id` tests at iteration `k`, where `sign` is the case's sign
      before this iteration's step flips it. */
  function CaseNumber(id: int, k: int, sign: int, digitSum: int -> int): int
    requires 1 <= id <= CaseCount
  {
    [ k * 2 + 1,                // case 1: subsequent odd numbers
      k * 2 * 3 + 1,            // case 2
      k * 2 * 3 - 1,            // case 3
      k * 2 * 3 - 1 * sign,     // case 4
      k,                        // case 5
      k * 2 * 3 * 5 + 1,        // case 6
      k * 2 * 3 * 5 - 1,        // case 7
      k * 2 * 3 * 5 - 1 * sign, // case 8
      digitSum(k)               // case 9: the decimal digit sum of k
    ][id - 1]
  }

  /** The residue classes the generators aim at: case 1 yields odd numbers, cases 2 and 3 the
      classes 1 and 5 modulo 6, cases 6 and 7 the classes 1 and 29 modulo 30, and cases 4 and 8
      the class of 6 or 30 the sign picks; case 5 is `k` itself and case 9 its digit sum. The
      remainders are the non-negative ones Python's `%` also gives. */
  lemma CaseResidues(k: int, sign: int, digitSum: int -> int)
    requires sign == 1 || sign == -1
    ensures CaseNumber(1, k, sign, digitSum) % 2 == 1
    ensures CaseNumber(2, k, sign, digitSum) % 6 == 1
    ensures CaseNumber(3, k, sign, digitSum) % 6 == 5
    ensures CaseNumber(4, k, sign, digitSum) % 6 == (if sign == 1 then 5 else 1)
    ensures CaseNumber(5, k, sign, digitSum) == k
    ensures CaseNumber(6, k, sign, digitSum) % 30 == 1
    ensures CaseNumber(7, k, sign, digitSum) % 30 == 29
    ensures CaseNumber(8, k, sign, digitSum) % 30 == (if sign == 1 then 29 else 1)
    ensures CaseNumber(9, k, sign, digitSum) == digitSum(k)
  {
    ResidueOf(2, k, 1);
    ResidueOf(6, k, 1);
    ResidueOf(6, k - 1, 5);
    ResidueOf(30, k, 1);
    ResidueOf(30, k - 1, 29);
    assert CaseNumber(3, k, sign, digitSum) == 6 * (k - 1) + 5;
    assert CaseNumber(7, k, sign, digitSum) == 30 * (k - 1) + 29;
    if sign == 1 {
      assert CaseNumber(4, k, sign, digitSum) == 6 * (k - 1) + 5;
      assert CaseNumber(8, k, sign, digitSum) == 30 * (k - 1) + 29;
    }
  }

  /** `m * q + r` leaves remainder `r` modulo `m` when `0 <= r < m`. */
  lemma ResidueOf(m: int, q: int, r: int)
    requires 0 < m && 0 <= r < m
    ensures (m * q + r) % m == r
  {
    var a := m * q + r;
    assert a == m * (a / m) + a % m;
    assert 0 <= a % m < m;
    assert m * (q - a / m) == a % m - r;
    MultipleBounds(q - a / m, m);
  }

  /** A nonzero multiple of a positive `m` is at least `m` away from zero. */
  lemma {:induction false} MultipleBounds(d: int, m: int)
    requires m > 0
    ensures d >= 1 ==> d * m >= m
    ensures d <= -1 ==> d * m <= -m
    decreases if d < 0 then -d else d
  {
    if d > 1 {
      MultipleBounds(d - 1, m);
      assert d * m == (d - 1) * m + m;
    } else if d < -1 {
      MultipleBounds(d + 1, m);
      assert d * m == (d + 1) * m - m;
    }
  }

  /** Only cases 4 and 8 read the sign; the other generators depend on `k` alone. */
  lemma OnlySignedCasesReadSign(id: int, k: int, sign: int, sign': int, digitSum: int -> int)
    requires 1 <= id <= CaseCount && id != 4 && id != 8
    ensures CaseNumber(id, k, sign, digitSum) == CaseNumber(id, k, sign', digitSum)
  {
  }

  /** Cases 4 and 8 test the number just below or above a multiple of 6 or 30, on the side
      the sign chooses. */
  lemma SignedCaseNumber(id: int, k: int, sign: int, digitSum: int -> int)
    requires id == 4 || id == 8
    ensures CaseNumber(id, k, sign, digitSum) == (if id == 4 then 6 else 30) * k - sign
  {
  }

  /** `run_test_case`: one step of the machine, the pen moved by the NEW heading, and the
      new position recorded with `update_points_optimized`. */
  function RunTestCase(isPrime: int -> bool, c: CaseState, num: int): (r: Result<CaseState>)
    ensures |c.points.datax| <= |c.points.datay| ==> r.Ok?
    ensures r.Err? ==> r.fault == IndexError
    ensures r.Ok? ==> r.value.numCurrent == num && r.value.isPreviousPrime == isPrime(num)
    ensures r.Ok? ==> (r.value.sign == -1 <==> c.sign == 1) && (r.value.sign == 1 || r.value.sign == -1)
    ensures r.Ok? ==> Delta(r.value.x - c.x, r.value.y - c.y) == r.value.delta
    ensures r.Ok? && IsCanonical(c.delta) ==>
              IsCanonical(r.value.delta) && (r.value.delta != c.delta <==> isPrime(num) != c.isPreviousPrime)
  {
    var it := NextIteration(isPrime, num, c.isPreviousPrime, c.delta, c.sign);
    var x := c.x + it.delta.dx;
    var y := c.y + it.delta.dy;
    var points :- UpdatePointsOptimized(c.points, x, y, it.turn);
    Ok(CaseState(x, y, it.delta, it.sign, it.isPreviousPrime, num, points))
  }

  /** Case `id` at iteration `k`: its number, then `run_test_case`. */
  function StepCase(plan: Plan, k: int, c: CaseState, id: int): Result<CaseState>
    requires 1 <= id <= CaseCount
  {
    RunTestCase(plan.isPrime, c, CaseNumber(id, k, c.sign, plan.digitSum))
  }

  /** The body of the main loop for cases `id`..9, in the program's order. */
  function RunCases(plan: Plan, k: int, w: seq<CaseState>, id: int): (r: Result<seq<CaseState>>)
    requires 1 <= id <= CaseCount + 1
    ensures r.Ok? ==> |r.value| == |w|
    ensures r.Err? ==> r.fault == IndexError
    decreases CaseCount + 1 - id
  {
    if id > CaseCount then Ok(w)
    else if id !in plan.enabled then RunCases(plan, k, w, id + 1)
    else if |w| < id then Err(IndexError)
    else match StepCase(plan, k, w[id - 1], id)
      case Err(f) => Err(f)
      case Ok(c) => RunCases(plan, k, w[id - 1 := c], id + 1)
  }

  /** The iterations `lo`..`hi - 1` of the main loop, checkpoints aside. */
  function Advance(plan: Plan, lo: int, hi: int, w: seq<CaseState>): (r: Result<seq<CaseState>>)
    ensures r.Ok? ==> |r.value| == |w|
    ensures r.Err? ==> r.fault == IndexError
    decreases hi - lo
  {
    if lo >= hi then Ok(w)
    else match RunCases(plan, lo, w, 1)
      case Err(f) => Err(f)
      case Ok(w') => Advance(plan, lo + 1, hi, w')
  }

  /** What a case needs for the next step to succeed and for its sign to alternate: parallel
      point lists and a sign in {-1, 1}. */
  predicate Ready(c: CaseState) {
    WellFormed(c.points) && (c.sign == 1 || c.sign == -1)
  }

  /** The invariants one case keeps from its initial state on. */
  ghost predicate CaseInvariant(c: CaseState) {
    && Ready(c)
    && NoDuplicates(c.points)
    && Present(c.points, c.x, c.y)
    && IsCanonical(c.delta)
  }

  /** Nine cases, each ready for its next step. */
  ghost predicate Healthy(w: seq<CaseState>) {
    |w| == CaseCount && forall i :: 0 <= i < |w| ==> Ready(w[i])
  }
}

=== FILE: checkpoints.dfy ===
/** The main loop with its checkpoints, and the program around it.

    A checkpoint saves the cursor `k_current` together with every case's state;
    on start-up a restored positive cursor replaces the configured first
    iteration. Which iteration the saved cursor names is a parameter of the
    model (`CursorRule`), so that the program's choice and the corrected one can
    be compared.
 */
module Checkpoints {
  import opened Outcomes
  import opened Cases

  /** The run parameters: `min_num`, `max_num` and `checkpoint_value`. */
  datatype Config = Config(plan: Plan, minNum: int, maxNum: int, checkpointValue: int)

  /** The settings the program ships with. */
  function Configured(isPrime: int -> bool, digitSum: int -> int): Config {
    Config(Plan(isPrime, digitSum, {1, 2, 3, 4, 5, 6, 7, 8, 9}), 1, 200000, 5000)
  }

  /** `(k - min_num) % checkpoint_value == 0`. Python's `%` floors where Dafny's is Euclidean,
      but for a nonzero divisor both leave remainder zero exactly on multiples; a zero divisor
      raises ZeroDivisionError. */
  function CheckpointDue(k: int, minNum: int, checkpointValue: int): (r: Result<bool>)
    ensures r.Err? <==> checkpointValue == 0
    ensures r.Err? ==> r.fault == ZeroDivisionError
    ensures r.Ok? && k == minNum ==> r.value
  {
    if checkpointValue == 0 then Err(ZeroDivisionError)
    else Ok((k - minNum) % checkpointValue == 0)
  }

  /** With a positive interval, a checkpoint fires at `min_num` and every `checkpoint_value`
      iterations after it, and at no iteration in between. */
  lemma CheckpointSchedule(minNum: int, checkpointValue: int, j: nat, rem: int)
    requires checkpointValue > 0 && 0 <= rem < checkpointValue
    ensures CheckpointDue(minNum + j * checkpointValue + rem, minNum, checkpointValue) == Ok(rem == 0)
  {
    ResidueOf(checkpointValue, j, rem);
  }

  /** `int(k * 100 / max_num)` at line 299, the progress figure every checkpoint computes:
      the percentage of `max_num` that `k` stands for, rounded toward zero as `int` does.
      A zero `max_num` raises ZeroDivisionError. */
  function PercCompleted(k: int, maxNum: int): (r: Result<int>)
    ensures r.Err? <==> maxNum == 0
    ensures r.Err? ==> r.fault == ZeroDivisionError
    ensures r.Ok? && 0 <= k && 0 < maxNum ==> r.value * maxNum <= k * 100 < (r.value + 1) * maxNum
    ensures r.Ok? && k < 0 && 0 < maxNum ==> r.value * maxNum >= k * 100 > (r.value - 1) * maxNum
  {
    if maxNum == 0 then Err(ZeroDivisionError)
    else
      var n := if k < 0 then -k * 100 else k * 100;
      var d := if maxNum < 0 then -maxNum else maxNum;
      Ok(if (k < 0) == (maxNum < 0) then n / d else -(n / d))
  }

  /** Lines 297-299: whether iteration `k` is a checkpoint, and the faults of the test and of
      the progress figure a checkpoint computes. */
  function CheckpointAt(cfg: Config, minNum: int, k: int): (r: Result<bool>)
    ensures r.Ok? ==> CheckpointDue(k, minNum, cfg.checkpointValue) == Ok(r.value)
    ensures r.Err? <==> cfg.checkpointValue == 0 || (CheckpointDue(k, minNum, cfg.checkpointValue).value && cfg.maxNum == 0)
    ensures r.Err? ==> r.fault == ZeroDivisionError
  {
    match CheckpointDue(k, minNum, cfg.checkpointValue)
    case Err(f) => Err(f)
    case Ok(due) =>
      if !due then Ok(false)
      else match PercCompleted(k, cfg.maxNum)
        case Err(f) => Err(f)
        case Ok(_) => Ok(true)
  }

  /** A saved snapshot: `k_current` and every case's state. */
  datatype Snapshot = Snapshot(cursor: int, world: seq<CaseState>)

  /** What `k_current` names when a checkpoint saves it after iteration `k`. */
  datatype CursorRule =
    | SaveProcessed  // `k_current = k`, the iteration just processed, as the program does
    | SaveNext       // `k_current = k + 1`, the first iteration not processed yet

  function SavedCursor(rule: CursorRule, k: int): (r: int)
    ensures r == k <==> rule.SaveProcessed?
    ensures r == k + 1 <==> rule.SaveNext?
  {
    if rule.SaveProcessed? then k else k + 1
  }

  /** The first iteration a snapshot saved with cursor `cursor` under `rule` does not include. */
  function ProcessedEnd(rule: CursorRule, cursor: int): (r: int)
    ensures SavedCursor(rule, r - 1) == cursor
  {
    if rule.SaveProcessed? then cursor + 1 else cursor
  }

  /** A snapshot saved after iteration `k` includes the iterations before `k + 1`, whichever
      the rule. */
  lemma SavedEnd(rule: CursorRule, k: int)
    ensures ProcessedEnd(rule, SavedCursor(rule, k)) == k + 1
  {
  }

  datatype LoopEnd = LoopEnd(world: seq<CaseState>, saved: Option<Snapshot>)

  /** The main loop over the iterations `k`..`hi - 1`, with the checkpoint schedule anchored at
      `minNum`; `saved` is the last snapshot this loop wrote. The program runs it up to `max_num`;
      a run killed early is cut at a smaller `hi`. */
  function Loop(cfg: Config, rule: CursorRule, minNum: int, k: int, hi: int, w: seq<CaseState>, saved: Option<Snapshot>): (r: Result<LoopEnd>)
    ensures k < hi && cfg.checkpointValue == 0 ==> r.Err?
    ensures minNum == k < hi && cfg.maxNum == 0 ==> r.Err?
    ensures r.Ok? && saved.Some? ==> r.value.saved.Some?
    decreases hi - k
  {
    if k >= hi then Ok(LoopEnd(w, saved))
    else match RunCases(cfg.plan, k, w, 1)
      case Err(f) => Err(f)
      case Ok(w') =>
        match CheckpointAt(cfg, minNum, k)
        case Err(f) => Err(f)
        case Ok(due) =>
          Loop(cfg, rule, minNum, k + 1, hi, w', if due then Some(Snapshot(SavedCursor(rule, k), w')) else saved)
  }

  function WorldOf(r: Result<LoopEnd>): Result<seq<CaseState>> {
    match r
    case Ok(e) => Ok(e.world)
    case Err(f) => Err(f)
  }

  /** The snapshot `sn`, taken under `rule`, holds exactly the world after the iterations from
      `minNum` up to the first one it claims not to include. */
  ghost predicate Records(plan: Plan, rule: CursorRule, minNum: int, w0: seq<CaseState>, sn: Snapshot) {
    var end := ProcessedEnd(rule, sn.cursor);
    minNum < end && Advance(plan, minNum, end, w0) == Ok(sn.world)
  }

  /** Lines 243-244: a restored positive `k_current` replaces `min_num`. */
  function StartCursor(cfg: Config, restored: Option<Snapshot>): (r: int)
    ensures restored.Some? && restored.value.cursor > 0 ==> r == restored.value.cursor
    ensures r != cfg.minNum ==> restored.Some? && r == restored.value.cursor && r > 0
  {
    if restored.Some? && restored.value.cursor > 0 then restored.value.cursor else cfg.minNum
  }

  /** A restored snapshot replaces every case's state, whatever its cursor. */
  function StartWorld(restored: Option<Snapshot>): seq<CaseState> {
    if restored.Some? then restored.value.world else InitialWorld
  }

  /** Restoring replaces the state whatever the cursor, but only a positive cursor moves the
      start: a snapshot whose cursor is not positive is run again from `min_num` on its own state. */
  lemma RestoreRule(cfg: Config, sn: Snapshot)
    ensures StartWorld(Some(sn)) == sn.world
    ensures sn.cursor > 0 ==> StartCursor(cfg, Some(sn)) == sn.cursor
    ensures sn.cursor <= 0 ==> StartCursor(cfg, Some(sn)) == cfg.minNum
    ensures StartCursor(cfg, None) == cfg.minNum && StartWorld(None) == InitialWorld
  {
  }

  /** The main program from restoring to the final save; the result is the final snapshot.
      The final report reads `perc_completed`, which only a checkpoint binds, so an empty
      iteration range ends in NameError; a zero `max_num` fails either way, since the first
      iteration is always a checkpoint and its progress figure divides by `max_num`. */
  function Main(cfg: Config, rule: CursorRule, restored: Option<Snapshot>): (r: Result<Snapshot>)
    ensures StartCursor(cfg, restored) >= cfg.maxNum ==> r == Err(NameError)
    ensures cfg.maxNum == 0 || cfg.checkpointValue == 0 ==> r.Err?
    ensures r.Ok? ==> r.value.cursor == cfg.maxNum
  {
    var start := StartCursor(cfg, restored);
    var finished :- Loop(cfg, rule, start, start, cfg.maxNum, StartWorld(restored), None);
    if finished.saved.None? then Err(NameError) else Ok(Snapshot(cfg.maxNum, finished.world))
  }

  /** The snapshot on disk when a fresh run is killed just before iteration `stop`: the last
      one its loop saved. */
  function SnapshotAtCrash(cfg: Config, rule: CursorRule, stop: int): Result<Option<Snapshot>> {
    var finished :- Loop(cfg, rule, cfg.minNum, cfg.minNum, stop, InitialWorld, None);
    Ok(finished.saved)
  }

  /** Both runs end normally, and case `j + 1` ends with opposite signs in the two. */
  ghost predicate OppositeSign(a: Result<Snapshot>, b: Result<Snapshot>, j: int) {
    && a.Ok? && b.Ok?
    && |a.value.world| == |b.value.world| == CaseCount
    && 0 <= j < CaseCount
    && a.value.world[j].sign == -b.value.world[j].sign
  }
}

=== FILE: iterations.dfy ===
/** What one case step and runs of whole iterations preserve: the case invariants,
    the independence of the cases, and the alternation of every enabled case's sign.
 */
module Iterations {
  import opened Outcomes
  import opened Shapes
  import opened PointStore
  import opened Cases

  /** The nine cases start ready, each with sign 1. */
  lemma InitialWorldHealthy()
    ensures Healthy(InitialWorld)
    ensures forall i :: 0 <= i < |InitialWorld| ==> InitialWorld[i].sign == 1
  {
    InitialStore();
  }

  /** One step of a case keeps its invariants: the store stays parallel and duplicate-free
      and holds the pen position, the heading stays canonical, the sign stays in {-1, 1}. */
  lemma RunTestCaseKeepsInvariant(isPrime: int -> bool, c: CaseState, num: int)
    requires CaseInvariant(c)
    ensures RunTestCase(isPrime, c, num).Ok?
    ensures CaseInvariant(RunTestCase(isPrime, c, num).value)
  {
    RunTestCaseKeepsReady(isPrime, c, num);
    RunTestCaseKeepsNoDuplicates(isPrime, c, num);
    RunTestCaseKeepsPresent(isPrime, c, num);
  }

  /** The store stays duplicate-free through a step. */
  lemma RunTestCaseKeepsNoDuplicates(isPrime: int -> bool, c: CaseState, num: int)
    requires WellFormed(c.points) && NoDuplicates(c.points)
    ensures RunTestCase(isPrime, c, num).Ok?
    ensures NoDuplicates(RunTestCase(isPrime, c, num).value.points)
  {
    var it := NextIteration(isPrime, num, c.isPreviousPrime, c.delta, c.sign);
    OptimizedKeepsStore(c.points, c.x + it.delta.dx, c.y + it.delta.dy, it.turn);
  }

  /** After a step the store holds the new pen position. */
  lemma RunTestCaseKeepsPresent(isPrime: int -> bool, c: CaseState, num: int)
    requires WellFormed(c.points) && NoDuplicates(c.points)
    ensures RunTestCase(isPrime, c, num).Ok?
    ensures var r := RunTestCase(isPrime, c, num).value; Present(r.points, r.x, r.y)
  {
    var it := NextIteration(isPrime, num, c.isPreviousPrime, c.delta, c.sign);
    OptimizedKeepsStore(c.points, c.x + it.delta.dx, c.y + it.delta.dy, it.turn);
  }

  /** A step moves the pen by exactly one unit along one axis. */
  lemma PenMovesOneUnit(isPrime: int -> bool, c: CaseState, num: int)
    requires Ready(c) && IsCanonical(c.delta)
    ensures RunTestCase(isPrime, c, num).Ok?
    ensures var r := RunTestCase(isPrime, c, num).value;
            (r.x - c.x) * (r.x - c.x) + (r.y - c.y) * (r.y - c.y) == 1
  {
    RunTestCaseKeepsReady(isPrime, c, num);
    var r := RunTestCase(isPrime, c, num).value;
    var dx, dy := r.x - c.x, r.y - c.y;
    assert IsCanonical(Delta(dx, dy));
    if dx == 0 {
      assert dy == 1 || dy == -1;
      assert dy * dy == 1;
    } else {
      assert dy == 0 && (dx == 1 || dx == -1);
      assert dx * dx == 1;
    }
  }

  /** One step of a ready case succeeds and leaves it ready. */
  lemma RunTestCaseKeepsReady(isPrime: int -> bool, c: CaseState, num: int)
    requires Ready(c)
    ensures RunTestCase(isPrime, c, num).Ok?
    ensures Ready(RunTestCase(isPrime, c, num).value)
  {
    var it := NextIteration(isPrime, num, c.isPreviousPrime, c.delta, c.sign);
    UpdatesPreserveWellFormed(c.points, c.x + it.delta.dx, c.y + it.delta.dy, it.turn);
  }

  /** One iteration never fails on a healthy world and keeps it healthy. */
  lemma {:induction false} RunCasesHealthy(plan: Plan, k: int, w: seq<CaseState>, id: int)
    requires 1 <= id <= CaseCount + 1
    requires Healthy(w)
    ensures RunCases(plan, k, w, id).Ok?
    ensures Healthy(RunCases(plan, k, w, id).value)
    decreases CaseCount + 1 - id
  {
    if id <= CaseCount {
      RunCasesUnfold(plan, k, w, id);
      if id !in plan.enabled {
        RunCasesHealthy(plan, k, w, id + 1);
      } else {
        RunTestCaseKeepsReady(plan.isPrime, w[id - 1], CaseNumber(id, k, w[id - 1].sign, plan.digitSum));
        var c := StepCase(plan, k, w[id - 1], id).value;
        HealthyUpdate(w, id - 1, c);
        RunCasesHealthy(plan, k, w[id - 1 := c], id + 1);
      }
    }
  }

  /** The first case of a pass, peeled off. */
  lemma RunCasesUnfold(plan: Plan, k: int, w: seq<CaseState>, id: int)
    requires 1 <= id <= CaseCount
    ensures id !in plan.enabled ==> RunCases(plan, k, w, id) == RunCases(plan, k, w, id + 1)
    ensures id in plan.enabled && id <= |w| && StepCase(plan, k, w[id - 1], id).Ok? ==>
              RunCases(plan, k, w, id) == RunCases(plan, k, w[id - 1 := StepCase(plan, k, w[id - 1], id).value], id + 1)
  {
  }

  /** One iteration leaves disabled cases alone and steps each enabled case on its own state,
      independently of the others. */
  lemma RunCasesAt(plan: Plan, k: int, w: seq<CaseState>, id: int, j: int)
    requires 1 <= id <= CaseCount + 1
    requires Healthy(w)
    requires 0 <= j < CaseCount
    ensures RunCases(plan, k, w, id).Ok? && |RunCases(plan, k, w, id).value| == CaseCount
    ensures RunCases(plan, k, w, id).value[j] ==
              if id <= j + 1 && j + 1 in plan.enabled then StepCase(plan, k, w[j], j + 1).value else w[j]
  {
    RunCasesHealthy(plan, k, w, id);
    if id <= j + 1 && j + 1 in plan.enabled {
      RunTestCaseKeepsReady(plan.isPrime, w[j], CaseNumber(j + 1, k, w[j].sign, plan.digitSum));
      RunCasesSteps(plan, k, w, id, j, StepCase(plan, k, w[j], j + 1).value);
    } else {
      RunCasesKeeps(plan, k, w, id, j);
    }
  }

  /** A case that is disabled, or that the pass has already gone by, is left alone. */
  lemma {:induction false} RunCasesKeeps(plan: Plan, k: int, w: seq<CaseState>, id: int, j: int)
    requires 1 <= id <= CaseCount + 1
    requires Healthy(w)
    requires 0 <= j < CaseCount && (j + 1 < id || j + 1 !in plan.enabled)
    ensures RunCases(plan, k, w, id).Ok? && |RunCases(plan, k, w, id).value| == CaseCount
    ensures RunCases(plan, k, w, id).value[j] == w[j]
    decreases CaseCount + 1 - id
  {
    if id <= CaseCount {
      RunCasesUnfold(plan, k, w, id);
      if id !in plan.enabled {
        RunCasesKeeps(plan, k, w, id + 1, j);
      } else {
        RunTestCaseKeepsReady(plan.isPrime, w[id - 1], CaseNumber(id, k, w[id - 1].sign, plan.digitSum));
        var c := StepCase(plan, k, w[id - 1], id).value;
        HealthyUpdate(w, id - 1, c);
        RunCasesKeeps(plan, k, w[id - 1 := c], id + 1, j);
        assert w[id - 1 := c][j] == w[j];
      }
    }
  }

  /** An enabled case the pass has yet to reach ends stepped once, on its own state. */
  lemma {:induction false} RunCasesSteps(plan: Plan, k: int, w: seq<CaseState>, id: int, j: int, d: CaseState)
    requires 1 <= id <= j + 1 <= CaseCount
    requires Healthy(w)
    requires j + 1 in plan.enabled && StepCase(plan, k, w[j], j + 1) == Ok(d)
    ensures RunCases(plan, k, w, id).Ok? && |RunCases(plan, k, w, id).value| == CaseCount
    ensures RunCases(plan, k, w, id).value[j] == d
    decreases CaseCount + 1 - id, 1
  {
    if id == j + 1 {
      RunCasesStepHere(plan, k, w, id, j, d);
    } else if id !in plan.enabled {
      RunCasesUnfold(plan, k, w, id);
      RunCasesSteps(plan, k, w, id + 1, j, d);
    } else {
      RunCasesStepsPast(plan, k, w, id, j, d);
    }
  }

  /** An enabled case before case `j + 1` is stepped without touching index `j`. */
  lemma {:induction false} RunCasesStepsPast(plan: Plan, k: int, w: seq<CaseState>, id: int, j: int, d: CaseState)
    requires 1 <= id < j + 1 <= CaseCount && id in plan.enabled
    requires Healthy(w)
    requires j + 1 in plan.enabled && StepCase(plan, k, w[j], j + 1) == Ok(d)
    ensures RunCases(plan, k, w, id).Ok? && |RunCases(plan, k, w, id).value| == CaseCount
    ensures RunCases(plan, k, w, id).value[j] == d
    decreases CaseCount + 1 - id, 0
  {
    RunTestCaseKeepsReady(plan.isPrime, w[id - 1], CaseNumber(id, k, w[id - 1].sign, plan.digitSum));
    var c := StepCase(plan, k, w[id - 1], id).value;
    HealthyUpdate(w, id - 1, c);
    RunCasesUnfold(plan, k, w, id);
    assert w[id - 1 := c][j] == w[j];
    RunCasesSteps(plan, k, w[id - 1 := c], id + 1, j, d);
  }

  /** The pass reaching enabled case `j + 1` steps it and then leaves it alone. */
  lemma RunCasesStepHere(plan: Plan, k: int, w: seq<CaseState>, id: int, j: int, d: CaseState)
    requires id == j + 1 && 0 <= j < CaseCount
    requires Healthy(w)
    requires j + 1 in plan.enabled && StepCase(plan, k, w[j], j + 1) == Ok(d)
    ensures RunCases(plan, k, w, id).Ok? && |RunCases(plan, k, w, id).value| == CaseCount
    ensures RunCases(plan, k, w, id).value[j] == d
  {
    RunTestCaseKeepsReady(plan.isPrime, w[j], CaseNumber(j + 1, k, w[j].sign, plan.digitSum));
    HealthyUpdate(w, j, d);
    RunCasesUnfoldAt(plan, k, w, j, d);
    RunCasesKeeps(plan, k, w[j := d], j + 2, j);
    assert RunCases(plan, k, w, id) == RunCases(plan, k, w, j + 1);
  }

  /** The pass reaching enabled case `j + 1`, with the step written at index `j`. */
  lemma RunCasesUnfoldAt(plan: Plan, k: int, w: seq<CaseState>, j: int, d: CaseState)
    requires 0 <= j < CaseCount && j < |w|
    requires j + 1 in plan.enabled && StepCase(plan, k, w[j], j + 1) == Ok(d)
    ensures RunCases(plan, k, w, j + 1) == RunCases(plan, k, w[j := d], j + 2)
  {
  }

  lemma HealthyUpdate(w: seq<CaseState>, i: int, c: CaseState)
    requires Healthy(w) && 0 <= i < |w| && Ready(c)
    ensures Healthy(w[i := c])
  {
    var w' := w[i := c];
    forall j | 0 <= j < |w'|
      ensures Ready(w'[j])
    {
      if j != i {
        assert w'[j] == w[j];
      }
    }
  }

  /** A healthy world runs any number of iterations without fault and stays healthy. */
  lemma {:induction false} AdvanceHealthy(plan: Plan, lo: int, hi: int, w: seq<CaseState>)
    requires Healthy(w)
    ensures Advance(plan, lo, hi, w).Ok?
    ensures Healthy(Advance(plan, lo, hi, w).value)
    decreases hi - lo
  {
    if lo < hi {
      RunCasesHealthy(plan, lo, w, 1);
      AdvanceHealthy(plan, lo + 1, hi, RunCases(plan, lo, w, 1).value);
    }
  }

  /** Running `lo..mid` and then `mid..hi` is running `lo..hi`: iterations carry no state
      besides the world. */
  lemma {:induction false} AdvanceSplit(plan: Plan, lo: int, mid: int, hi: int, w: seq<CaseState>, v: seq<CaseState>)
    requires lo <= mid <= hi
    requires Advance(plan, lo, mid, w) == Ok(v)
    ensures Advance(plan, lo, hi, w) == Advance(plan, mid, hi, v)
    decreases mid - lo
  {
    if lo < mid {
      AdvanceSplit(plan, lo + 1, mid, hi, RunCases(plan, lo, w, 1).value, v);
    }
  }

  /** A run that fails on `lo..mid` fails the same way on any longer range. */
  lemma {:induction false} AdvanceSplitErr(plan: Plan, lo: int, mid: int, hi: int, w: seq<CaseState>)
    requires lo <= mid <= hi
    requires Advance(plan, lo, mid, w).Err?
    ensures Advance(plan, lo, hi, w) == Advance(plan, lo, mid, w)
    decreases mid - lo
  {
    var r := RunCases(plan, lo, w, 1);
    if r.Ok? {
      AdvanceSplitErr(plan, lo + 1, mid, hi, r.value);
    }
  }

  /** A run extended by one more iteration. */
  lemma AdvanceExtend(plan: Plan, lo: int, k: int, w0: seq<CaseState>, w: seq<CaseState>)
    requires lo <= k && Advance(plan, lo, k, w0) == Ok(w) && RunCases(plan, k, w, 1).Ok?
    ensures Advance(plan, lo, k + 1, w0) == Ok(RunCases(plan, k, w, 1).value)
  {
    AdvanceSplit(plan, lo, k, k + 1, w0, w);
  }

  /** Every enabled case's sign flips once per iteration, whatever the verdicts; a disabled
      case's sign never changes. */
  lemma {:induction false} AdvanceSign(plan: Plan, lo: int, hi: int, w: seq<CaseState>, j: int)
    requires Healthy(w)
    requires lo <= hi
    requires 0 <= j < CaseCount
    ensures Advance(plan, lo, hi, w).Ok? && |Advance(plan, lo, hi, w).value| == CaseCount
    ensures Advance(plan, lo, hi, w).value[j].sign ==
              if j + 1 in plan.enabled then Flipped(w[j].sign, lo, hi) else w[j].sign
    decreases hi - lo
  {
    if lo < hi {
      StepSign(plan, lo, w, j);
      var w' := RunCases(plan, lo, w, 1).value;
      AdvanceSign(plan, lo + 1, hi, w', j);
      AdvanceStepSign(plan, lo, hi, w, j);
      if j + 1 in plan.enabled {
        FlippedStep(w[j].sign, lo, hi);
      }
    }
  }

  /** The first iteration of a run, peeled off, as seen from one case's sign. */
  lemma AdvanceStepSign(plan: Plan, lo: int, hi: int, w: seq<CaseState>, j: int)
    requires lo < hi && 0 <= j
    requires RunCases(plan, lo, w, 1).Ok?
    requires Advance(plan, lo + 1, hi, RunCases(plan, lo, w, 1).value).Ok?
    requires j < |Advance(plan, lo + 1, hi, RunCases(plan, lo, w, 1).value).value|
    ensures Advance(plan, lo, hi, w).Ok?
    ensures |Advance(plan, lo, hi, w).value| == |Advance(plan, lo + 1, hi, RunCases(plan, lo, w, 1).value).value|
    ensures Advance(plan, lo, hi, w).value[j].sign == Advance(plan, lo + 1, hi, RunCases(plan, lo, w, 1).value).value[j].sign
  {
  }

  /** The same in terms of parity: after an even number of iterations every sign is back. */
  lemma AdvanceSignParity(plan: Plan, lo: int, hi: int, w: seq<CaseState>, j: int)
    requires Healthy(w)
    requires lo <= hi
    requires 0 <= j < CaseCount
    ensures Advance(plan, lo, hi, w).Ok? && |Advance(plan, lo, hi, w).value| == CaseCount
    ensures Advance(plan, lo, hi, w).value[j].sign ==
              if j + 1 !in plan.enabled || (hi - lo) % 2 == 0 then w[j].sign else -w[j].sign
  {
    AdvanceSign(plan, lo, hi, w, j);
    FlippedParity(w[j].sign, lo, hi);
  }

  /** One iteration flips the sign of case `j + 1` exactly when that case is enabled. */
  lemma StepSign(plan: Plan, k: int, w: seq<CaseState>, j: int)
    requires Healthy(w)
    requires 0 <= j < CaseCount
    ensures RunCases(plan, k, w, 1).Ok? && Healthy(RunCases(plan, k, w, 1).value)
    ensures RunCases(plan, k, w, 1).value[j].sign == if j + 1 in plan.enabled then -w[j].sign else w[j].sign
  {
    RunCasesHealthy(plan, k, w, 1);
    RunCasesAt(plan, k, w, 1, j);
    if j + 1 in plan.enabled {
      RunTestCaseKeepsReady(plan.isPrime, w[j], CaseNumber(j + 1, k, w[j].sign, plan.digitSum));
    }
  }

  /** Cases 4 and 8 test `6k - sign` and `30k - sign` with the sign read before the step
      flips it, so the offset from the multiple of 6 or 30 alternates between successive `k`. */
  lemma AlternatingOffset(plan: Plan, k: int, w: seq<CaseState>, id: int)
    requires Healthy(w)
    requires (id == 4 || id == 8) && id in plan.enabled
    ensures RunCases(plan, k, w, 1).Ok? && |RunCases(plan, k, w, 1).value| == CaseCount
    ensures var m := if id == 4 then 6 else 30;
            var offset := m * k - CaseNumber(id, k, w[id - 1].sign, plan.digitSum);
            var offset' := m * (k + 1) - CaseNumber(id, k + 1, RunCases(plan, k, w, 1).value[id - 1].sign, plan.digitSum);
            offset == w[id - 1].sign && (offset == 1 || offset == -1) && offset' == -offset
  {
    StepSign(plan, k, w, id - 1);
    assert (id - 1) + 1 == id;
    SignedCaseNumber(id, k, w[id - 1].sign, plan.digitSum);
    SignedCaseNumber(id, k + 1, RunCases(plan, k, w, 1).value[id - 1].sign, plan.digitSum);
  }

  /** Running iteration `k` once more before `k + 1..hi - 1` leaves every enabled case with the
      opposite sign. */
  lemma ReplayFlipsSign(plan: Plan, k: int, hi: int, w: seq<CaseState>, j: int)
    requires Healthy(w) && k < hi && 0 <= j < CaseCount && j + 1 in plan.enabled
    ensures Advance(plan, k, hi, w).Ok? && |Advance(plan, k, hi, w).value| == CaseCount
    ensures Advance(plan, k + 1, hi, w).Ok? && |Advance(plan, k + 1, hi, w).value| == CaseCount
    ensures Advance(plan, k, hi, w).value[j].sign == -Advance(plan, k + 1, hi, w).value[j].sign
  {
    AdvanceSign(plan, k, hi, w, j);
    AdvanceSign(plan, k + 1, hi, w, j);
  }

  /** Nine cases, each keeping every invariant of a case. */
  ghost predicate Sound(w: seq<CaseState>) {
    |w| == CaseCount && forall i :: 0 <= i < |w| ==> CaseInvariant(w[i])
  }

  /** The initial world is sound. */
  lemma InitialWorldSound()
    ensures Sound(InitialWorld)
  {
    InitialStore();
  }

  /** One iteration keeps every case's invariants. */
  lemma StepSound(plan: Plan, k: int, w: seq<CaseState>)
    requires Sound(w)
    ensures RunCases(plan, k, w, 1).Ok? && Sound(RunCases(plan, k, w, 1).value)
  {
    assert Healthy(w) by {
      forall i | 0 <= i < |w| ensures Ready(w[i]) {
        assert CaseInvariant(w[i]);
      }
    }
    RunCasesHealthy(plan, k, w, 1);
    var r := RunCases(plan, k, w, 1).value;
    forall j | 0 <= j < |r|
      ensures CaseInvariant(r[j])
    {
      RunCasesAt(plan, k, w, 1, j);
      if j + 1 in plan.enabled {
        assert CaseInvariant(w[j]);
        RunTestCaseKeepsInvariant(plan.isPrime, w[j], CaseNumber(j + 1, k, w[j].sign, plan.digitSum));
      }
    }
  }

  /** From the initial world on, every case keeps its invariants through any run: the heading
      stays canonical, the sign stays in {-1, 1}, and the store stays parallel, duplicate-free
      and holding the pen position. */
  lemma {:induction false} AdvanceSound(plan: Plan, lo: int, hi: int, w: seq<CaseState>)
    requires Sound(w)
    ensures Advance(plan, lo, hi, w).Ok? && Sound(Advance(plan, lo, hi, w).value)
    decreases hi - lo
  {
    if lo < hi {
      StepSound(plan, lo, w);
      AdvanceSound(plan, lo + 1, hi, RunCases(plan, lo, w, 1).value);
    }
  }
}

=== FILE: outcomes.dfy ===
/** Failure-compatible result types for the model.

    The modelled program is a Python script; the exceptions it can raise on the
    paths modelled here are listed in `Fault`, and an operation that may raise
    one returns a `Result`. The list assumes `next_iteration` returns what
    `run_test_case` unpacks and keeps the statistics counters positive, and
    that `shapes` provides the digit-sum helper.
 */
module Outcomes {

  /** The Python exceptions reachable in the modelled code, under those assumptions. */
  datatype Fault =
    | IndexError         // a list read past its end
    | ZeroDivisionError  // `%` or `/` with a zero right operand
    | NameError          // a variable read before any statement bound it

  datatype Result<+T> = Ok(value: T) | Err(fault: Fault) {

    predicate IsFailure() {
      Err?
    }

    function PropagateFailure<U>(): Result<U>
      requires Err?
    {
      Err(fault)
    }

    function Extract(): T
      requires Ok?
    {
      value
    }
  }

  datatype Option<+T> = None | Some(value: T)
}

=== FILE: points.dfy ===
/** The per-case point store: three parallel lists `datax`, `datay`, `colors`.

    `UpdatePoints` appends unconditionally. `UpdatePointsOptimized` first scans
    `datax` for the new x and, on a hit, reads `datay` at the same index; it
    appends only when no index holds the pair. The scan reads `datay[i]` only
    when `datax[i]` matched, so a `datay` shorter than `datax` raises
    IndexError only when such a match lies past the end of `datay`.
 */
module PointStore {
  import opened Outcomes

  /** Colour tags of the points; the program sets both to 0. */
  const ColorTurn := 0
  const ColorNoTurn := 0

  datatype Store = Store(datax: seq<int>, datay: seq<int>, colors: seq<int>)

  /** The store every case starts with: the origin, once. */
  const Initial := Store([0], [0], [0])

  function ColorOf(turn: bool): int {
    if turn then ColorTurn else ColorNoTurn
  }

  /** The three parallel lists have the same length. */
  predicate WellFormed(s: Store) {
    |s.datax| == |s.datay| == |s.colors|
  }

  /** The common index `i` of `datax` and `datay` holds the pair `(x, y)`. */
  predicate At(s: Store, i: int, x: int, y: int) {
    0 <= i < |s.datax| && i < |s.datay| && s.datax[i] == x && s.datay[i] == y
  }

  /** Some common index of `datax` and `datay` holds the pair `(x, y)`. */
  ghost predicate Present(s: Store, x: int, y: int) {
    exists i :: At(s, i, x, y)
  }

  /** The common indices `i` and `j` hold different coordinate pairs. */
  predicate Distinct(s: Store, i: int, j: int)
    requires 0 <= i < |s.datax| && i < |s.datay| && 0 <= j < |s.datax| && j < |s.datay|
  {
    s.datax[i] != s.datax[j] || s.datay[i] != s.datay[j]
  }

  /** No coordinate pair is stored at two common indices. */
  ghost predicate NoDuplicates(s: Store) {
    forall i, j :: 0 <= i < j < |s.datax| && j < |s.datay| ==> Distinct(s, i, j)
  }

  /** The coordinate pairs held at common indices, as a set. */
  ghost function Points(s: Store): set<(int, int)> {
    set i | 0 <= i < |s.datax| && i < |s.datay| :: (s.datax[i], s.datay[i])
  }

  /** `update_points`: append `x`, `y` and the colour tag of `turn`. */
  function UpdatePoints(s: Store, x: int, y: int, turn: bool): (r: Store)
    ensures |r.datax| == |s.datax| + 1 && |r.datay| == |s.datay| + 1 && |r.colors| == |s.colors| + 1
    ensures r.datax[..|s.datax|] == s.datax && r.datay[..|s.datay|] == s.datay
    ensures r.colors[..|s.colors|] == s.colors
    ensures r.datax[|s.datax|] == x && r.datay[|s.datay|] == y && r.colors[|s.colors|] == ColorOf(turn)
    ensures WellFormed(s) ==> WellFormed(r)
  {
    Store(s.datax + [x], s.datay + [y], s.colors + [ColorOf(turn)])
  }

  /** What the linear scan of `update_points_optimized` ends with. */
  datatype Scan =
    | Hit(index: nat)    // the pair sits at `index`, the first index where it does
    | Miss               // the scan ran off the end of `datax`
    | Fault(index: nat)  // `datax[index]` matched but `datay` has no entry there

  /** Index `j` does not stop the scan: its x differs, or its y exists and differs. */
  predicate Skips(xs: seq<int>, ys: seq<int>, x: int, y: int, j: int)
    requires 0 <= j < |xs|
  {
    xs[j] != x || (j < |ys| && ys[j] != y)
  }

  /** The scan started at index `i`. */
  function ScanFrom(xs: seq<int>, ys: seq<int>, x: int, y: int, i: nat): (r: Scan)
    requires i <= |xs|
    ensures r.Hit? ==> i <= r.index < |xs| && r.index < |ys| && xs[r.index] == x && ys[r.index] == y
    ensures r.Fault? ==> i <= r.index < |xs| && |ys| <= r.index && xs[r.index] == x
    decreases |xs| - i
  {
    if i == |xs| then Miss
    else if xs[i] == x && |ys| <= i then Fault(i)
    else if xs[i] == x && ys[i] == y then Hit(i)
    else ScanFrom(xs, ys, x, y, i + 1)
  }

  /** Every index the scan passes over before it stops is skipped. */
  lemma {:induction false} ScanSkips(xs: seq<int>, ys: seq<int>, x: int, y: int, i: nat)
    requires i <= |xs|
    ensures var r := ScanFrom(xs, ys, x, y, i);
            forall j :: i <= j < (if r.Miss? then |xs| else r.index) ==> Skips(xs, ys, x, y, j)
    decreases |xs| - i
  {
    if i < |xs| && !(xs[i] == x && (|ys| <= i || ys[i] == y)) {
      ScanSkips(xs, ys, x, y, i + 1);
    }
  }

  /** The scan finds the pair exactly when the store holds it at a common index. */
  lemma ScanHitIffPresent(s: Store, x: int, y: int)
    ensures ScanFrom(s.datax, s.datay, x, y, 0).Hit? <==> Present(s, x, y)
  {
    var r := ScanFrom(s.datax, s.datay, x, y, 0);
    if r.Hit? {
      assert At(s, r.index, x, y);
    } else {
      ScanSkips(s.datax, s.datay, x, y, 0);
      forall j | 0 <= j < |s.datax| && j < |s.datay|
        ensures !At(s, j, x, y)
      {
        assert Skips(s.datax, s.datay, x, y, j);
      }
    }
  }

  /** The `for old_x in old_datax` loop of `update_points_optimized`. */
  method FindPoint(xs: seq<int>, ys: seq<int>, x: int, y: int) returns (r: Scan)
    ensures r == ScanFrom(xs, ys, x, y, 0)
  {
    var i := 0;
    while i < |xs|
      invariant 0 <= i <= |xs|
      invariant ScanFrom(xs, ys, x, y, i) == ScanFrom(xs, ys, x, y, 0)
    {
      if xs[i] == x {
        if |ys| <= i {
          return Fault(i);
        }
        if ys[i] == y {
          return Hit(i);
        }
      }
      i := i + 1;
    }
    return Miss;
  }

  /** `update_points_optimized`: record `(x, y)` unless the scan finds it already stored. */
  function UpdatePointsOptimized(s: Store, x: int, y: int, turn: bool): (r: Result<Store>)
    ensures |s.datax| <= |s.datay| ==> r.Ok?
    ensures r.Ok? ==> r.value == s || r.value == UpdatePoints(s, x, y, turn)
    ensures r.Err? ==> r.fault == IndexError && |s.datay| < |s.datax|
  {
    match ScanFrom(s.datax, s.datay, x, y, 0)
    case Hit(_) => Ok(s)
    case Miss => Ok(UpdatePoints(s, x, y, turn))
    case Fault(_) => Err(IndexError)
  }

  /** The optimized update in terms of the stored pairs: a pair already present changes
      nothing, an absent one is appended, and the update fails only when an x past the end
      of `datay` matches. */
  lemma OptimizedSpec(s: Store, x: int, y: int, turn: bool)
    ensures Present(s, x, y) ==> UpdatePointsOptimized(s, x, y, turn) == Ok(s)
    ensures !Present(s, x, y) && |s.datax| <= |s.datay| ==>
              UpdatePointsOptimized(s, x, y, turn) == Ok(UpdatePoints(s, x, y, turn))
    ensures UpdatePointsOptimized(s, x, y, turn).Err? ==> x in s.datax[|s.datay|..]
    ensures UpdatePointsOptimized(s, x, y, turn).Ok? && |s.datax| == |s.datay| ==>
              Present(UpdatePointsOptimized(s, x, y, turn).value, x, y)
  {
    ScanHitIffPresent(s, x, y);
    match ScanFrom(s.datax, s.datay, x, y, 0)
    case Hit(_) =>
    case Miss =>
      var r := UpdatePoints(s, x, y, turn);
      assert |s.datax| == |s.datay| ==> At(r, |s.datax|, x, y);
    case Fault(i) =>
      assert s.datax[|s.datay|..][i - |s.datay|] == x;
  }

  /** Both updates keep the three lists of equal length. */
  lemma UpdatesPreserveWellFormed(s: Store, x: int, y: int, turn: bool)
    requires WellFormed(s)
    ensures WellFormed(UpdatePoints(s, x, y, turn))
    ensures UpdatePointsOptimized(s, x, y, turn).Ok?
    ensures WellFormed(UpdatePointsOptimized(s, x, y, turn).value)
  {
  }

  /** The optimized update keeps a duplicate-free store duplicate-free. */
  lemma OptimizedKeepsNoDuplicates(s: Store, x: int, y: int, turn: bool)
    requires |s.datax| == |s.datay|
    requires NoDuplicates(s)
    ensures UpdatePointsOptimized(s, x, y, turn).Ok?
    ensures NoDuplicates(UpdatePointsOptimized(s, x, y, turn).value)
  {
    OptimizedSpec(s, x, y, turn);
    if !Present(s, x, y) {
      var r := UpdatePoints(s, x, y, turn);
      forall i, j | 0 <= i < j < |r.datax| && j < |r.datay|
        ensures Distinct(r, i, j)
      {
        if j == |s.datax| {
          assert !At(s, i, x, y);
        } else {
          assert Distinct(s, i, j);
          assert r.datax[i] == s.datax[i] && r.datax[j] == s.datax[j];
          assert r.datay[i] == s.datay[i] && r.datay[j] == s.datay[j];
        }
      }
    }
  }

  /** The store invariants a case keeps: the optimized update of a parallel, duplicate-free
      store succeeds, keeps it so, and leaves the new pair in it. */
  lemma OptimizedKeepsStore(s: Store, x: int, y: int, turn: bool)
    requires WellFormed(s) && NoDuplicates(s)
    ensures UpdatePointsOptimized(s, x, y, turn).Ok?
    ensures var t := UpdatePointsOptimized(s, x, y, turn).value;
            WellFormed(t) && NoDuplicates(t) && Present(t, x, y)
  {
    UpdatesPreserveWellFormed(s, x, y, turn);
    OptimizedKeepsNoDuplicates(s, x, y, turn);
    OptimizedSpec(s, x, y, turn);
  }

  /** A pair is in `Points` exactly when it is present. */
  lemma PointsIffPresent(s: Store, x: int, y: int)
    ensures (x, y) in Points(s) <==> Present(s, x, y)
  {
    if Present(s, x, y) {
      var i :| At(s, i, x, y);
      assert (s.datax[i], s.datay[i]) in Points(s);
    }
    if (x, y) in Points(s) {
      var i :| 0 <= i < |s.datax| && i < |s.datay| && (s.datax[i], s.datay[i]) == (x, y);
      assert At(s, i, x, y);
    }
  }

  /** On parallel lists, appending adds exactly the appended pair to the present ones. */
  lemma AppendPresent(s: Store, x: int, y: int, turn: bool, a: int, b: int)
    requires |s.datax| == |s.datay|
    ensures Present(UpdatePoints(s, x, y, turn), a, b) <==> Present(s, a, b) || (a == x && b == y)
  {
    var r := UpdatePoints(s, x, y, turn);
    if Present(r, a, b) {
      var i :| At(r, i, a, b);
      if i < |s.datax| {
        assert At(s, i, a, b);
      }
    }
    if Present(s, a, b) {
      var i :| At(s, i, a, b);
      assert At(r, i, a, b);
    }
    if a == x && b == y {
      assert At(r, |s.datax|, a, b);
    }
  }

  /** Seen as a set of coordinate pairs, the optimized update is set insertion. */
  lemma OptimizedIsSetInsertion(s: Store, x: int, y: int, turn: bool)
    requires |s.datax| == |s.datay|
    ensures UpdatePointsOptimized(s, x, y, turn).Ok?
    ensures Points(UpdatePointsOptimized(s, x, y, turn).value) == Points(s) + {(x, y)}
  {
    OptimizedSpec(s, x, y, turn);
    var r := UpdatePointsOptimized(s, x, y, turn).value;
    forall p
      ensures p in Points(r) <==> p in Points(s) + {(x, y)}
    {
      PointsIffPresent(r, p.0, p.1);
      PointsIffPresent(s, p.0, p.1);
      PointsIffPresent(s, x, y);
      if !Present(s, x, y) {
        AppendPresent(s, x, y, turn, p.0, p.1);
      }
    }
  }

  /** Recording the same coordinates again changes nothing, whatever the colour. */
  lemma OptimizedIdempotent(s: Store, x: int, y: int, turn: bool, turn': bool)
    requires |s.datax| == |s.datay|
    ensures UpdatePointsOptimized(UpdatePointsOptimized(s, x, y, turn).value, x, y, turn')
         == UpdatePointsOptimized(s, x, y, turn)
  {
    OptimizedSpec(s, x, y, turn);
    var r := UpdatePointsOptimized(s, x, y, turn).value;
    OptimizedSpec(r, x, y, turn');
  }

  /** The initial store satisfies every invariant the updates preserve. */
  lemma InitialStore()
    ensures WellFormed(Initial) && NoDuplicates(Initial) && Present(Initial, 0, 0)
  {
    assert At(Initial, 0, 0, 0);
  }
}

=== FILE: resume.dfy ===
/** Checkpoints and resuming: the loop computes what the checkpoint-free iterations
    compute, snapshots record what they claim, and a run resumed from a snapshot
    is compared with one that never stopped.
 */
module Resume {
  import opened Outcomes
  import opened Cases
  import opened Iterations
  import opened Checkpoints

  /** The loop's world is the checkpoint-free run of the same iterations whenever the loop ends
      normally, and always when neither `checkpoint_value` nor `max_num` is zero; a loop that
      runs at least one iteration from `minNum` has saved a snapshot. */
  lemma {:induction false} LoopMatchesAdvance(cfg: Config, rule: CursorRule, minNum: int, k: int, hi: int, w: seq<CaseState>, saved: Option<Snapshot>)
    ensures Loop(cfg, rule, minNum, k, hi, w, saved).Ok? ==> WorldOf(Loop(cfg, rule, minNum, k, hi, w, saved)) == Advance(cfg.plan, k, hi, w)
    ensures cfg.checkpointValue != 0 && cfg.maxNum != 0 ==> WorldOf(Loop(cfg, rule, minNum, k, hi, w, saved)) == Advance(cfg.plan, k, hi, w)
    ensures Loop(cfg, rule, minNum, k, hi, w, saved).Ok? && (saved.Some? || minNum == k < hi) ==>
              Loop(cfg, rule, minNum, k, hi, w, saved).value.saved.Some?
    decreases hi - k
  {
    if k < hi {
      var r := RunCases(cfg.plan, k, w, 1);
      var d := CheckpointAt(cfg, minNum, k);
      LoopUnfold(cfg, rule, minNum, k, hi, w, saved);
      if r.Ok? && d.Ok? {
        var saved' := if d.value then Some(Snapshot(SavedCursor(rule, k), r.value)) else saved;
        LoopMatchesAdvance(cfg, rule, minNum, k + 1, hi, r.value, saved');
      }
    }
  }

  /** Every snapshot the loop saves records the iterations it claims, and none beyond `hi`. */
  lemma {:induction false} LoopSnapshots(cfg: Config, rule: CursorRule, minNum: int, k: int, hi: int, w0: seq<CaseState>, w: seq<CaseState>, saved: Option<Snapshot>)
    requires minNum <= k <= hi
    requires Advance(cfg.plan, minNum, k, w0) == Ok(w)
    requires saved.Some? ==> Records(cfg.plan, rule, minNum, w0, saved.value) && ProcessedEnd(rule, saved.value.cursor) <= k
    ensures Loop(cfg, rule, minNum, k, hi, w, saved).Ok? && Loop(cfg, rule, minNum, k, hi, w, saved).value.saved.Some? ==>
              var sn := Loop(cfg, rule, minNum, k, hi, w, saved).value.saved.value;
              Records(cfg.plan, rule, minNum, w0, sn) && ProcessedEnd(rule, sn.cursor) <= hi
    decreases hi - k
  {
    if k < hi {
      var r := RunCases(cfg.plan, k, w, 1);
      var d := CheckpointAt(cfg, minNum, k);
      LoopUnfold(cfg, rule, minNum, k, hi, w, saved);
      if r.Ok? && d.Ok? {
        AdvanceExtend(cfg.plan, minNum, k, w0, w);
        SaveRecords(cfg.plan, rule, minNum, w0, k, r.value);
        var saved' := if d.value then Some(Snapshot(SavedCursor(rule, k), r.value)) else saved;
        LoopSnapshots(cfg, rule, minNum, k + 1, hi, w0, r.value, saved');
      }
    }
  }

  /** The first iteration of the loop, peeled off. */
  lemma LoopUnfold(cfg: Config, rule: CursorRule, minNum: int, k: int, hi: int, w: seq<CaseState>, saved: Option<Snapshot>)
    requires k < hi
    ensures var r := RunCases(cfg.plan, k, w, 1);
            var d := CheckpointAt(cfg, minNum, k);
            if r.Ok? && d.Ok? then
              Loop(cfg, rule, minNum, k, hi, w, saved) ==
                Loop(cfg, rule, minNum, k + 1, hi, r.value, if d.value then Some(Snapshot(SavedCursor(rule, k), r.value)) else saved)
            else Loop(cfg, rule, minNum, k, hi, w, saved).Err?
  {
  }

  /** With `max_num` zero, the first iteration is a checkpoint whose progress figure divides by
      zero, so the loop raises ZeroDivisionError there unless the cases already raised. */
  lemma FirstCheckpointRaises(cfg: Config, rule: CursorRule, k: int, hi: int, w: seq<CaseState>, saved: Option<Snapshot>)
    requires k < hi && cfg.maxNum == 0 && cfg.checkpointValue != 0
    requires RunCases(cfg.plan, k, w, 1).Ok?
    ensures Loop(cfg, rule, k, k, hi, w, saved) == Err(ZeroDivisionError)
  {
    assert CheckpointDue(k, k, cfg.checkpointValue) == Ok(true);
  }

  /** A snapshot of the world after iterations `minNum`..`k` records them, whichever the rule. */
  lemma SaveRecords(plan: Plan, rule: CursorRule, minNum: int, w0: seq<CaseState>, k: int, w: seq<CaseState>)
    requires minNum <= k && Advance(plan, minNum, k + 1, w0) == Ok(w)
    ensures Records(plan, rule, minNum, w0, Snapshot(SavedCursor(rule, k), w))
    ensures ProcessedEnd(rule, SavedCursor(rule, k)) == k + 1
  {
    SavedEnd(rule, k);
  }

  /** From a ready start with iterations to do and a nonzero interval, the program ends with a
      snapshot of the world after every iteration from the start cursor to `max_num - 1`, or,
      when `max_num` is zero, raises ZeroDivisionError at its first checkpoint. */
  lemma MainResult(cfg: Config, rule: CursorRule, restored: Option<Snapshot>)
    requires cfg.checkpointValue != 0
    requires Healthy(StartWorld(restored))
    requires StartCursor(cfg, restored) < cfg.maxNum
    ensures Advance(cfg.plan, StartCursor(cfg, restored), cfg.maxNum, StartWorld(restored)).Ok?
    ensures cfg.maxNum == 0 ==> Main(cfg, rule, restored) == Err(ZeroDivisionError)
    ensures cfg.maxNum != 0 ==>
              Main(cfg, rule, restored) ==
                Ok(Snapshot(cfg.maxNum, Advance(cfg.plan, StartCursor(cfg, restored), cfg.maxNum, StartWorld(restored)).value))
  {
    var start := StartCursor(cfg, restored);
    AdvanceHealthy(cfg.plan, start, cfg.maxNum, StartWorld(restored));
    if cfg.maxNum == 0 {
      RunCasesHealthy(cfg.plan, start, StartWorld(restored), 1);
      FirstCheckpointRaises(cfg, rule, start, cfg.maxNum, StartWorld(restored), None);
    } else {
      LoopMatchesAdvance(cfg, rule, start, start, cfg.maxNum, StartWorld(restored), None);
    }
  }

  /** A fresh run killed after its first checkpoint leaves a snapshot that records the iterations
      from `min_num` through the one its cursor names under `rule`; with `max_num` zero that
      checkpoint raises ZeroDivisionError instead. */
  lemma CrashSnapshot(cfg: Config, rule: CursorRule, stop: int)
    requires cfg.checkpointValue != 0
    requires cfg.minNum < stop <= cfg.maxNum
    ensures cfg.maxNum == 0 ==> SnapshotAtCrash(cfg, rule, stop) == Err(ZeroDivisionError)
    ensures cfg.maxNum != 0 ==> SnapshotAtCrash(cfg, rule, stop).Ok? && SnapshotAtCrash(cfg, rule, stop).value.Some?
    ensures cfg.maxNum != 0 ==>
              var sn := SnapshotAtCrash(cfg, rule, stop).value.value;
              Records(cfg.plan, rule, cfg.minNum, InitialWorld, sn) && ProcessedEnd(rule, sn.cursor) <= stop
  {
    InitialWorldHealthy();
    if cfg.maxNum == 0 {
      RunCasesHealthy(cfg.plan, cfg.minNum, InitialWorld, 1);
      FirstCheckpointRaises(cfg, rule, cfg.minNum, stop, InitialWorld, None);
    } else {
      AdvanceHealthy(cfg.plan, cfg.minNum, stop, InitialWorld);
      LoopMatchesAdvance(cfg, rule, cfg.minNum, cfg.minNum, stop, InitialWorld, None);
      LoopSnapshots(cfg, rule, cfg.minNum, cfg.minNum, stop, InitialWorld, InitialWorld, None);
    }
  }

  /** As written: the checkpoint stores the iteration it has just processed, and resuming starts
      at that iteration, so it runs twice. Every enabled case then ends with the opposite sign
      to an uninterrupted run, because the sign flips on every iteration. */
  lemma ResumeReplaysIteration(cfg: Config, stop: int, id: int)
    requires cfg.checkpointValue != 0
    requires 0 <= cfg.minNum < stop <= cfg.maxNum
    requires 1 <= id <= CaseCount && id in cfg.plan.enabled
    ensures SnapshotAtCrash(cfg, SaveProcessed, stop).Ok? && SnapshotAtCrash(cfg, SaveProcessed, stop).value.Some?
    ensures OppositeSign(Main(cfg, SaveProcessed, SnapshotAtCrash(cfg, SaveProcessed, stop).value),
                         Main(cfg, SaveProcessed, None), id - 1)
  {
    CrashSnapshot(cfg, SaveProcessed, stop);
    var sn := SnapshotAtCrash(cfg, SaveProcessed, stop).value.value;
    RecordsProcessed(cfg.plan, cfg.minNum, InitialWorld, sn);
    ReplayFrom(cfg, sn, id);
  }

  /** As written, resuming from a snapshot of iterations `min_num`..`cursor` runs iteration
      `cursor` again, and every enabled case ends with the opposite sign to an uninterrupted run.
      This needs a cursor that line 243 does not ignore: a positive one, or `min_num` itself. */
  lemma ReplayFrom(cfg: Config, sn: Snapshot, id: int)
    requires cfg.checkpointValue != 0
    requires cfg.minNum <= sn.cursor < cfg.maxNum && cfg.maxNum != 0
    requires 0 < sn.cursor || sn.cursor == cfg.minNum
    requires Advance(cfg.plan, cfg.minNum, sn.cursor + 1, InitialWorld) == Ok(sn.world)
    requires 1 <= id <= CaseCount && id in cfg.plan.enabled
    ensures OppositeSign(Main(cfg, SaveProcessed, Some(sn)), Main(cfg, SaveProcessed, None), id - 1)
  {
    ResumedSign(cfg, sn, id - 1);
    FreshSign(cfg, id - 1);
  }

  /** The sign an enabled case `j + 1` ends a resumed run with: iteration `cursor` runs again,
      so it is the opposite of the one the checkpoint-free run from `min_num` leaves. */
  lemma ResumedSign(cfg: Config, sn: Snapshot, j: int)
    requires cfg.checkpointValue != 0 && cfg.maxNum != 0
    requires cfg.minNum <= sn.cursor < cfg.maxNum
    requires 0 < sn.cursor || sn.cursor == cfg.minNum
    requires Advance(cfg.plan, cfg.minNum, sn.cursor + 1, InitialWorld) == Ok(sn.world)
    requires 0 <= j < CaseCount && j + 1 in cfg.plan.enabled
    ensures Main(cfg, SaveProcessed, Some(sn)).Ok? && |Main(cfg, SaveProcessed, Some(sn)).value.world| == CaseCount
    ensures Advance(cfg.plan, cfg.minNum, cfg.maxNum, InitialWorld).Ok?
    ensures |Advance(cfg.plan, cfg.minNum, cfg.maxNum, InitialWorld).value| == CaseCount
    ensures Main(cfg, SaveProcessed, Some(sn)).value.world[j].sign == -Advance(cfg.plan, cfg.minNum, cfg.maxNum, InitialWorld).value[j].sign
  {
    KeptCursor(cfg, sn);
    RecordedHealthy(cfg.plan, cfg.minNum, sn.cursor + 1, sn.world);
    MainSign(cfg, SaveProcessed, Some(sn), j);
    ReplayAfter(cfg.plan, cfg.minNum, sn.cursor, cfg.maxNum, sn.world, j);
  }

  /** The sign case `j + 1` ends an uninterrupted run with. */
  lemma FreshSign(cfg: Config, j: int)
    requires cfg.checkpointValue != 0 && cfg.maxNum != 0
    requires cfg.minNum < cfg.maxNum
    requires 0 <= j < CaseCount
    ensures Main(cfg, SaveProcessed, None).Ok? && |Main(cfg, SaveProcessed, None).value.world| == CaseCount
    ensures Advance(cfg.plan, cfg.minNum, cfg.maxNum, InitialWorld).Ok?
    ensures |Advance(cfg.plan, cfg.minNum, cfg.maxNum, InitialWorld).value| == CaseCount
    ensures Main(cfg, SaveProcessed, None).value.world[j].sign == Advance(cfg.plan, cfg.minNum, cfg.maxNum, InitialWorld).value[j].sign
  {
    InitialWorldHealthy();
    MainSign(cfg, SaveProcessed, None, j);
  }

  /** A cursor that line 243 keeps is where the resumed run starts, on the snapshot's state. */
  lemma KeptCursor(cfg: Config, sn: Snapshot)
    requires 0 < sn.cursor || sn.cursor == cfg.minNum
    ensures StartCursor(cfg, Some(sn)) == sn.cursor && StartWorld(Some(sn)) == sn.world
  {
  }

  /** The world a fresh run reaches is ready. */
  lemma RecordedHealthy(plan: Plan, lo: int, hi: int, w: seq<CaseState>)
    requires Advance(plan, lo, hi, InitialWorld) == Ok(w)
    ensures Healthy(w)
  {
    InitialWorldHealthy();
    AdvanceHealthy(plan, lo, hi, InitialWorld);
  }

  /** The sign case `j + 1` ends the program with is the one the checkpoint-free run leaves. */
  lemma MainSign(cfg: Config, rule: CursorRule, restored: Option<Snapshot>, j: int)
    requires cfg.checkpointValue != 0 && cfg.maxNum != 0
    requires Healthy(StartWorld(restored)) && StartCursor(cfg, restored) < cfg.maxNum
    requires 0 <= j < CaseCount
    ensures Main(cfg, rule, restored).Ok? && |Main(cfg, rule, restored).value.world| == CaseCount
    ensures Advance(cfg.plan, StartCursor(cfg, restored), cfg.maxNum, StartWorld(restored)).Ok?
    ensures |Advance(cfg.plan, StartCursor(cfg, restored), cfg.maxNum, StartWorld(restored)).value| == CaseCount
    ensures Main(cfg, rule, restored).value.world[j].sign ==
              Advance(cfg.plan, StartCursor(cfg, restored), cfg.maxNum, StartWorld(restored)).value[j].sign
  {
    MainResult(cfg, rule, restored);
    AdvanceHealthy(cfg.plan, StartCursor(cfg, restored), cfg.maxNum, StartWorld(restored));
  }

  /** Resuming from the world after iteration `k` at iteration `k` runs it again: every enabled
      case ends with the opposite sign to the uninterrupted run. */
  lemma ReplayAfter(plan: Plan, minNum: int, k: int, maxNum: int, w: seq<CaseState>, j: int)
    requires minNum <= k < maxNum
    requires Advance(plan, minNum, k + 1, InitialWorld) == Ok(w)
    requires 0 <= j < CaseCount && j + 1 in plan.enabled
    ensures Advance(plan, k, maxNum, w).Ok? && |Advance(plan, k, maxNum, w).value| == CaseCount
    ensures Advance(plan, minNum, maxNum, InitialWorld).Ok? && |Advance(plan, minNum, maxNum, InitialWorld).value| == CaseCount
    ensures Advance(plan, k, maxNum, w).value[j].sign == -Advance(plan, minNum, maxNum, InitialWorld).value[j].sign
  {
    InitialWorldHealthy();
    AdvanceHealthy(plan, minNum, k + 1, InitialWorld);
    AdvanceSplit(plan, minNum, k + 1, maxNum, InitialWorld, w);
    ReplayFlipsSign(plan, k, maxNum, w, j);
  }

  /** Resuming from any ready snapshot with a positive cursor runs the iterations from its cursor
      on, starting from its world. */
  lemma ResumedRun(cfg: Config, rule: CursorRule, sn: Snapshot)
    requires cfg.checkpointValue != 0
    requires 0 < sn.cursor < cfg.maxNum
    requires Healthy(sn.world)
    ensures Advance(cfg.plan, sn.cursor, cfg.maxNum, sn.world).Ok?
    ensures Main(cfg, rule, Some(sn)) == Ok(Snapshot(cfg.maxNum, Advance(cfg.plan, sn.cursor, cfg.maxNum, sn.world).value))
  {
    MainResult(cfg, rule, Some(sn));
  }

  /** A run that restores nothing runs every iteration from `min_num`, or raises ZeroDivisionError
      at its first checkpoint when `max_num` is zero. */
  lemma UninterruptedRun(cfg: Config, rule: CursorRule)
    requires cfg.checkpointValue != 0
    requires cfg.minNum < cfg.maxNum
    ensures Advance(cfg.plan, cfg.minNum, cfg.maxNum, InitialWorld).Ok?
    ensures cfg.maxNum == 0 ==> Main(cfg, rule, None) == Err(ZeroDivisionError)
    ensures cfg.maxNum != 0 ==> Main(cfg, rule, None) == Ok(Snapshot(cfg.maxNum, Advance(cfg.plan, cfg.minNum, cfg.maxNum, InitialWorld).value))
  {
    InitialWorldHealthy();
    MainResult(cfg, rule, None);
  }

  /** An uninterrupted run passes through the world `w` after iteration `last`, and its result
      is what the remaining iterations make of `w` (or ZeroDivisionError when `max_num` is zero). */
  lemma UninterruptedThrough(cfg: Config, rule: CursorRule, last: int, w: seq<CaseState>)
    requires cfg.checkpointValue != 0
    requires cfg.minNum <= last < cfg.maxNum
    requires Advance(cfg.plan, cfg.minNum, last + 1, InitialWorld) == Ok(w)
    ensures Healthy(w)
    ensures Advance(cfg.plan, last + 1, cfg.maxNum, w).Ok?
    ensures cfg.maxNum == 0 ==> Main(cfg, rule, None) == Err(ZeroDivisionError)
    ensures cfg.maxNum != 0 ==> Main(cfg, rule, None) == Ok(Snapshot(cfg.maxNum, Advance(cfg.plan, last + 1, cfg.maxNum, w).value))
  {
    InitialWorldHealthy();
    AdvanceHealthy(cfg.plan, cfg.minNum, last + 1, InitialWorld);
    AdvanceHealthy(cfg.plan, last + 1, cfg.maxNum, w);
    MainResult(cfg, rule, None);
    AdvanceSplit(cfg.plan, cfg.minNum, last + 1, cfg.maxNum, InitialWorld, w);
  }

  lemma RecordsProcessed(plan: Plan, minNum: int, w0: seq<CaseState>, sn: Snapshot)
    requires Records(plan, SaveProcessed, minNum, w0, sn)
    ensures minNum <= sn.cursor && Advance(plan, minNum, sn.cursor + 1, w0) == Ok(sn.world)
  {
  }

  /** Corrected: a checkpoint that stores the first iteration not yet processed makes resuming
      indistinguishable from never having stopped, as long as an iteration is left to run;
      with none left, the restarted program ends in NameError. */
  lemma ResumeMatchesUninterrupted(cfg: Config, stop: int)
    requires cfg.checkpointValue != 0
    requires 0 <= cfg.minNum < stop <= cfg.maxNum
    ensures SnapshotAtCrash(cfg, SaveNext, stop).Ok? && SnapshotAtCrash(cfg, SaveNext, stop).value.Some?
    ensures var sn := SnapshotAtCrash(cfg, SaveNext, stop).value.value;
            && sn.cursor <= cfg.maxNum
            && (sn.cursor < cfg.maxNum ==> Main(cfg, SaveNext, Some(sn)) == Main(cfg, SaveNext, None))
            && (sn.cursor == cfg.maxNum ==> Main(cfg, SaveNext, Some(sn)) == Err(NameError))
  {
    CrashSnapshot(cfg, SaveNext, stop);
    var sn := SnapshotAtCrash(cfg, SaveNext, stop).value.value;
    InitialWorldHealthy();
    AdvanceHealthy(cfg.plan, cfg.minNum, sn.cursor, InitialWorld);
    if sn.cursor < cfg.maxNum {
      MainResult(cfg, SaveNext, Some(sn));
      MainResult(cfg, SaveNext, None);
      AdvanceSplit(cfg.plan, cfg.minNum, sn.cursor, cfg.maxNum, InitialWorld, Advance(cfg.plan, cfg.minNum, sn.cursor, InitialWorld).value);
    }
  }

  /** The shipped settings (iterations 1 to 199999, a checkpoint every 5000, all nine cases) meet
      the conditions above: a run killed after its first checkpoint and resumed ends with every
      case's sign opposite to an uninterrupted run's. */
  lemma ShippedSettingsReplay(isPrime: int -> bool, digitSum: int -> int, stop: int, id: int)
    requires 1 < stop <= 200000
    requires 1 <= id <= CaseCount
    ensures var cfg := Configured(isPrime, digitSum);
            && SnapshotAtCrash(cfg, SaveProcessed, stop).Ok? && SnapshotAtCrash(cfg, SaveProcessed, stop).value.Some?
            && OppositeSign(Main(cfg, SaveProcessed, SnapshotAtCrash(cfg, SaveProcessed, stop).value),
                            Main(cfg, SaveProcessed, None), id - 1)
  {
    ResumeReplaysIteration(Configured(isPrime, digitSum), stop, id);
  }
}

=== FILE: shapes.dfy ===
/** The turn/heading/sign state machine of one case.

    Each iteration tests one number for primality. A change of verdict with
    respect to the previous number is a "turn", which rotates the unit heading
    of the pen 90 degrees counter-clockwise. The alternating sign flips on
    every iteration. Primality is an abstract predicate supplied by the caller.
 */
module Shapes {

  /** A heading `(delta_x, delta_y)`; any pair of integers can be passed in. */
  datatype Delta = Delta(dx: int, dy: int)

  /** The four unit headings the walk starts from and stays among. */
  predicate IsCanonical(d: Delta) {
    d == Delta(1, 0) || d == Delta(0, 1) || d == Delta(-1, 0) || d == Delta(0, -1)
  }

  /** Reference rotation by 90 degrees counter-clockwise, independent of `NextDelta`. */
  function Rotate(d: Delta): Delta {
    Delta(-d.dy, d.dx)
  }

  /** `next_delta`: one step of the fixed cycle (1,0) -> (0,1) -> (-1,0) -> (0,-1) -> (1,0)
      when `turn` holds; any other pair falls through to the final return unchanged. */
  function NextDelta(d: Delta, turn: bool): (r: Delta)
    ensures !turn ==> r == d
    ensures turn && IsCanonical(d) ==> r != d
    ensures !IsCanonical(d) ==> r == d
    ensures IsCanonical(r) <==> IsCanonical(d)
  {
    if turn then
      if d.dx == 1 && d.dy == 0 then Delta(0, 1)
      else if d.dx == 0 && d.dy == 1 then Delta(-1, 0)
      else if d.dx == -1 && d.dy == 0 then Delta(0, -1)
      else if d.dx == 0 && d.dy == -1 then Delta(1, 0)
      else d
    else d
  }

  /** The result of `next_turn`: whether a turn occurs and the new previous-verdict flag. */
  datatype Turn = Turn(turn: bool, isPreviousPrime: bool)

  /** `next_turn`: two sequential tests, the second reading the flag the first may have set. */
  function NextTurn(isPrime: int -> bool, num: int, isPreviousPrime: bool): (r: Turn)
    ensures r.turn <==> isPrime(num) != isPreviousPrime
    ensures r.isPreviousPrime == isPrime(num)
  {
    var first := if isPrime(num) && !isPreviousPrime then Turn(true, true)
                 else Turn(false, isPreviousPrime);
    if !isPrime(num) && first.isPreviousPrime then Turn(true, false) else first
  }

  /** `next_sign`: compares with 1 only, so every value other than 1 maps to 1. */
  function NextSign(sign: int): (r: int)
    ensures r == 1 || r == -1
    ensures r == -1 <==> sign == 1
  {
    if sign == 1 then -1 else 1
  }

  /** The five results of `next_iteration`. */
  datatype Iteration = Iteration(delta: Delta, sign: int, isPreviousPrime: bool, turn: bool)

  /** `next_iteration`: the turn decision, the sign flip and the heading update, composed. */
  function NextIteration(isPrime: int -> bool, num: int, isPreviousPrime: bool, delta: Delta, sign: int): (r: Iteration)
    ensures r.turn <==> isPrime(num) != isPreviousPrime
    ensures r.isPreviousPrime == isPrime(num)
    ensures r.sign == 1 || r.sign == -1
    ensures r.sign == -1 <==> sign == 1
    ensures !r.turn ==> r.delta == delta
    ensures IsCanonical(delta) ==> (r.delta != delta <==> r.turn)
    ensures IsCanonical(r.delta) <==> IsCanonical(delta)
  {
    var t := NextTurn(isPrime, num, isPreviousPrime);
    var s := NextSign(sign);
    Iteration(NextDelta(delta, t.turn), s, t.isPreviousPrime, t.turn)
  }

  /** The state after feeding every number of `nums`, in order, through `NextIteration`. */
  function Iterate(isPrime: int -> bool, nums: seq<int>, s: Iteration): Iteration
    decreases |nums|
  {
    if |nums| == 0 then s
    else Iterate(isPrime, nums[1..], NextIteration(isPrime, nums[0], s.isPreviousPrime, s.delta, s.sign))
  }

  /** `n` turns in a row. */
  function Turns(d: Delta, n: nat): Delta
    decreases n
  {
    if n == 0 then d else Turns(NextDelta(d, true), n - 1)
  }

  /** The number of verdict changes along `nums`, starting from the flag `previous`. */
  function TurnCount(isPrime: int -> bool, nums: seq<int>, previous: bool): nat
    decreases |nums|
  {
    if |nums| == 0 then 0
    else (if isPrime(nums[0]) != previous then 1 else 0) + TurnCount(isPrime, nums[1..], isPrime(nums[0]))
  }

  /** Without a turn, every heading (canonical or not) is returned unchanged. */
  lemma NoTurnKeepsHeading(d: Delta)
    ensures NextDelta(d, false) == d
  {
  }

  /** With a turn, the canonical headings follow the cycle asserted by the unit tests. */
  lemma TurnCycle()
    ensures NextDelta(Delta(1, 0), true) == Delta(0, 1)
    ensures NextDelta(Delta(0, 1), true) == Delta(-1, 0)
    ensures NextDelta(Delta(-1, 0), true) == Delta(0, -1)
    ensures NextDelta(Delta(0, -1), true) == Delta(1, 0)
  {
  }

  /** On the canonical headings the cycle is exactly the reference rotation. */
  lemma TurnIsRotation(d: Delta)
    requires IsCanonical(d)
    ensures NextDelta(d, true) == Rotate(d)
  {
  }

  /** A non-canonical heading is not rotated, even when a turn is requested. */
  lemma NonCanonicalFallsThrough(d: Delta)
    requires !IsCanonical(d)
    ensures NextDelta(d, true) == d
  {
  }

  /** Turning repeatedly only ever visits canonical headings, and the cycle has period four. */
  lemma {:induction false} TurnsPeriodic(d: Delta, n: nat)
    requires IsCanonical(d)
    ensures IsCanonical(Turns(d, n))
    ensures Turns(d, n) == Turns(d, n % 4)
    decreases n
  {
    if n >= 4 {
      FourTurnsIdentity(d);
      TurnsSplit(d, 4, n - 4);
      TurnsPeriodic(d, n - 4);
      assert (n - 4) % 4 == n % 4;
    } else if n > 0 {
      TurnsCanonical(NextDelta(d, true), n - 1);
    }
  }

  /** Four consecutive turns bring any canonical heading back to itself, and no fewer do. */
  lemma FourTurnsIdentity(d: Delta)
    requires IsCanonical(d)
    ensures Turns(d, 4) == d
    ensures Turns(d, 1) != d && Turns(d, 2) != d && Turns(d, 3) != d
  {
    if d == Delta(1, 0) {
    } else if d == Delta(0, 1) {
    } else if d == Delta(-1, 0) {
    } else {
    }
  }

  lemma {:induction false} TurnsCanonical(d: Delta, n: nat)
    requires IsCanonical(d)
    ensures IsCanonical(Turns(d, n))
    decreases n
  {
    if n > 0 {
      TurnsCanonical(NextDelta(d, true), n - 1);
    }
  }

  lemma {:induction false} TurnsSplit(d: Delta, a: nat, b: nat)
    ensures Turns(d, a + b) == Turns(Turns(d, a), b)
    decreases a
  {
    if a > 0 {
      TurnsSplit(NextDelta(d, true), a - 1, b);
    }
  }

  /** `next_sign` is an involution on {-1, 1}. */
  lemma SignInvolution(sign: int)
    requires sign == 1 || sign == -1
    ensures NextSign(NextSign(sign)) == sign
    ensures NextSign(sign) == -sign
  {
  }

  /** The sign flips on every call, whatever the verdicts: after `|nums|` iterations
      it is back where it started exactly when `|nums|` is even. */
  lemma {:induction false} IterateSignParity(isPrime: int -> bool, nums: seq<int>, s: Iteration)
    requires s.sign == 1 || s.sign == -1
    ensures Iterate(isPrime, nums, s).sign == (if |nums| % 2 == 0 then s.sign else -s.sign)
    decreases |nums|
  {
    if |nums| > 0 {
      var next := NextIteration(isPrime, nums[0], s.isPreviousPrime, s.delta, s.sign);
      IterateSignParity(isPrime, nums[1..], next);
    }
  }

  /** A sign flipped once for each of the iterations `lo`..`hi - 1`. */
  function Flipped(sign: int, lo: int, hi: int): int
    decreases hi - lo
  {
    if lo >= hi then sign else -Flipped(sign, lo + 1, hi)
  }

  /** Flipping commutes with negating the starting sign. */
  lemma {:induction false} FlippedNegate(sign: int, lo: int, hi: int)
    ensures Flipped(-sign, lo, hi) == -Flipped(sign, lo, hi)
    decreases hi - lo
  {
    if lo < hi {
      FlippedNegate(sign, lo + 1, hi);
    }
  }

  /** The first flip, peeled off. */
  lemma FlippedStep(sign: int, lo: int, hi: int)
    requires lo < hi
    ensures Flipped(-sign, lo + 1, hi) == Flipped(sign, lo, hi)
  {
    FlippedNegate(sign, lo + 1, hi);
  }

  /** The sign is back where it started exactly when the number of iterations is even. */
  lemma {:induction false} FlippedParity(sign: int, lo: int, hi: int)
    requires lo <= hi
    ensures Flipped(sign, lo, hi) == if (hi - lo) % 2 == 0 then sign else -sign
    decreases hi - lo
  {
    if lo < hi {
      FlippedParity(sign, lo + 1, hi);
    }
  }

  /** Starting from sign 1, the sign is 1 after `|nums|` iterations iff `|nums|` is even. */
  lemma SignFromOne(isPrime: int -> bool, nums: seq<int>, s: Iteration)
    requires s.sign == 1
    ensures Iterate(isPrime, nums, s).sign == 1 <==> |nums| % 2 == 0
  {
    IterateSignParity(isPrime, nums, s);
  }

  /** The heading after a run of iterations is the start heading turned once per verdict change,
      and the previous-verdict flag ends equal to the verdict on the last number. */
  lemma {:induction false} IterateHeading(isPrime: int -> bool, nums: seq<int>, s: Iteration)
    ensures Iterate(isPrime, nums, s).delta == Turns(s.delta, TurnCount(isPrime, nums, s.isPreviousPrime))
    ensures |nums| > 0 ==> Iterate(isPrime, nums, s).isPreviousPrime == isPrime(nums[|nums| - 1])
    decreases |nums|
  {
    if |nums| > 0 {
      var next := NextIteration(isPrime, nums[0], s.isPreviousPrime, s.delta, s.sign);
      IterateHeading(isPrime, nums[1..], next);
      if |nums| > 1 {
        assert nums[1..][|nums[1..]| - 1] == nums[|nums| - 1];
      }
    }
  }

  /** Starting from a canonical heading, the heading stays canonical on every run. */
  lemma {:induction false} IterateCanonical(isPrime: int -> bool, nums: seq<int>, s: Iteration)
    requires IsCanonical(s.delta)
    ensures IsCanonical(Iterate(isPrime, nums, s).delta)
  {
    IterateHeading(isPrime, nums, s);
    TurnsCanonical(s.delta, TurnCount(isPrime, nums, s.isPreviousPrime));
  }
}
